=== FILE: README.md ===
# CMLauncher update core, in Dafny

A model of the update core of CMLauncher, the launcher that keeps a
ChroMapper installation up to date. It covers the following.

- **The patch-path planner** (`Updater.FindPath`). A backward-chaining search from
  the desired build towards the installed one, over the server's listing of
  `<destination>/<source>.patch` objects.
- **Package extraction** (`Updater.ExtractZip`). Every entry is resolved against the
  launcher folder and checked by a case-insensitive string-prefix test. Then
  its directory is created and the file is written. The first entry that fails
  the test aborts the extraction, and so does a directory or file write that
  the disk refuses because a file and a directory would share a path.
- **Patch application** (`Updater.ApplyPatch`). Each file entry is routed by the
  segment before its first `/` to a relative path starting with `chromapper/`,
  which resolves against the process's working directory. The entry is then
  written there verbatim or rebuilt through the xdelta or bsdiff codec from
  the file already there.
- **The update session** (`Updater.DoUpdate` with `UpdateUsingZip`,
  `UpdateUsingPatch` and `SetVersion`). An optional reinstall of the stable
  build, then the planned patch hops in order, or a fallback to stable, then exit.
  The session records every stage attempted, the version reached and the
  persisted version record.
- **The Linux self-replacement** (`LinuxSpecific.Restart`, `CleanupUpdate`,
  `GetCMLPath`, `GetTempCMLPath`). The running executable is parked as
  `CML-Linux.old` and the download is moved into its place. The parked copy
  is deleted on the next start.
- **The Linux console front end** (`LinuxSpecific.RewriteLine`, `UpdateLabel`,
  `UpdateProgress`). Also the command line and file mode that `LinuxSpecific.Exit`
  uses to start the editor.

The modules follow that structure:

| module | file | content |
|---|---|---|
| `Wrappers` | `wrappers.dfy` | `Option` and `Result` |
| `Text` | `text.dfy` | the .NET string operations used |
| `Paths` | `paths.dfy` | `Path.Combine`, `Path.GetFullPath` and `Path.GetDirectoryName` for `/`-separated paths |
| `FileSystem` | `filesystem.dfy` | the disk as a map of files plus a set of directories |
| `Planner` | `planner.dfy` | the planner |
| `Extraction` | `extraction.dfy` | package extraction |
| `Patching` | `patching.dfy` | patch application |
| `Orchestration` | `session.dfy` | the session |
| `SelfReplace` | `selfreplace.dfy` | self-replacement |
| `LinuxShim` | `linuxshim.dfy` | the console front end |

Everything is a pure function over immutable values.

- **Downloads** are oracles in the session's `Env`:
  - the patch listing is `int -> seq<int>`;
  - the package and patch archives are `Option`s, where `None` is a failed
    download.
- **Exceptions** are `Result`/`Option` values, or the `Failed` status of a
  session. The codecs return `None` when they throw on a corrupt patch.
- **The disk** is keyed by absolute paths, as `Path.GetFullPath` resolves
  them. It is a tree: every file and directory sits in a directory that
  exists, and no path is both a file and a directory. `File.WriteAllBytes`
  and `Directory.CreateDirectory` throw where .NET throws on such a clash.

### Behaviour of the code worth knowing

- **The listing keeps its order.** The listing of sources is collected into a
  `List<int>`, so it is modelled as a sequence in listing order, which may
  hold duplicates.
- **A failure ends the session.** `DoUpdate` is an `async void` with no
  handler. A failed download, an escaping package entry, a refused write or a
  failing patch entry therefore ends the session with an exception:
  - there is no fallback to stable;
  - `Main.Exit` is not called.

  A failed listing request (`GetAsync` at `src/Updater.cs:194`) ends the
  session the same way. The model's listing always answers, so that case is
  not modelled.

  The model's `Failed` status is that outcome. The only fallback is the one the
  code has: when no patch chain exists, the session reinstalls stable unless it
  is already on stable.
- **A stale parked copy blocks self-replacement.** `File.Move` does not
  overwrite, so a `CML-Linux.old` left by an earlier update makes `Restart`
  throw before anything moves. `SelfReplace.StaleParkedCopyBlocksRestart`
  states this.
- **Replacement is not guaranteed to complete.** The running executable is
  always recoverable from one of the two paths (`SelfReplace.Restart`). But a
  missing download leaves the launcher path empty
  (`SelfReplace.MissingDownloadLeavesOnlyParkedCopy`).
- **The containment check compares strings.** The check in `ExtractZip` is a
  string-prefix test, not a path test. When the launcher folder has no
  trailing separator, an entry `../<folder>X/file` lands in a sibling folder
  whose name extends the launcher folder's, and it is admitted
  (`Extraction.SiblingFolderAdmitted`). With a trailing separator, as
  `AppContext.BaseDirectory` has, the same entry is refused
  (`Extraction.SiblingFolderRefusedUnderTrailingSeparator`).
- **Patch entries are not contained.** A patch entry `../x` is written to
  `<working directory>/x`, outside `chromapper/`
  (`Patching.ParentSegmentsPassThrough`).
- **`Replace` rewrites every occurrence.** `Replace` at `src/Updater.cs:111`
  rewrites the codec name everywhere in the key, not only in the leading
  segment (`Patching.CodecNameReplacedEverywhere`).
- **The planner is not complete.** It commits to the least listed source above
  the installed build and gives up when that branch dead-ends, even when
  another chain exists (`Planner.ExampleLeastWaypointDeadEnds`).

## Model

| member | source | states |
|---|---|---|
| `Planner.LeastAbove` | src/Updater.cs:229 | `None` exactly when no listed source lies above the floor; otherwise a listed source above the floor that is no larger than any other such source |
| `Planner.FindPath` | src/Updater.cs:187-241 | any plan returned is valid. It rises strictly from above the installed build to the desired build, every hop is a listed patch, and it has at most `desired - current` hops |
| `Planner.DirectPatchPreferred` | src/Updater.cs:217-225 | a direct patch from the installed build gives the one-hop plan, whatever longer routes exist |
| `Planner.ThroughLeastWaypoint` | src/Updater.cs:227-236 | without a direct patch, the search goes through the least listed source above the installed build and no other. It fails exactly when the search to that waypoint fails, and otherwise appends the desired build |
| `Planner.NoWaypointNoPlan` | src/Updater.cs:237-240 | with no listed source at or above the installed build, there is no plan |
| `Planner.ExampleTwoHops` | src/Updater.cs:217-235 | 13 lists {9, 12} and 12 lists {8, 10}, so from 10 the plan is [12, 13] |
| `Planner.ExampleNoRoute` | src/Updater.cs:227-240 | 20 lists only {3}, so from 5 there is no plan |
| `Planner.ExampleLeastWaypointDeadEnds` | src/Updater.cs:227-240 | a valid plan [12, 13] exists, but the search commits to the least waypoint 11, dead-ends there and returns no plan |
| `Text.IndexOf` | src/Updater.cs:106 | the first position of the character, or -1 exactly when it is absent |
| `Text.LastIndexOf` | src/Updater.cs:171-172 | the last position of the character, or -1 exactly when it is absent |
| `Text.ReplaceAll` | src/Updater.cs:111 | replacing the pattern by itself gives the string back, and a replacement of the same length keeps the length |
| `Text.ReplaceAbsent` | src/Updater.cs:111 | a string without the pattern comes back unchanged |
| `Text.ReplaceDrawsFrom` | src/Updater.cs:111 | every character of the result comes from the string or from the replacement |
| `Text.ReplaceFirst` | src/Updater.cs:111 | the first occurrence, scanning left to right, is replaced, the text before it is kept, and replacement resumes after it. With the absent case this fixes the result on every string |
| `Text.SplitJoin` | Linux/LinuxSpecific.cs:114 | splitting a join at the separator gives the pieces back when none holds the separator |
| `FileSystem.WriteAllBytes` | src/Updater.cs:141 | succeeds exactly when the file's directory exists and the path is not a directory. It then sets that one file, leaves every other file and every directory as they were, and keeps the disk a tree |
| `FileSystem.CreateDirectory` | src/Updater.cs:171 | succeeds exactly when neither the directory nor any of its ancestors is a file. It then adds exactly the directory and its ancestors, changes no file, and keeps the disk a tree |
| `Paths.CombineKeepsBoth` | src/Updater.cs:161 | `Path.Combine` ends with the second path, starts with the first when the second is relative, and keeps a rooted first path rooted |
| `Paths.Canon` | src/Updater.cs:161 | `Path.GetFullPath` always gives a rooted path |
| `Paths.CanonTrailing` | src/Updater.cs:161 | the normal form ends with a separator exactly when it is the root or the path ended with one |
| `Paths.FullPath` | src/Updater.cs:161 | `Path.GetFullPath(Path.Combine(…))` is rooted, and a rooted path resolves the same whatever the working directory |
| `Paths.CanonIdempotent` | src/Updater.cs:161 | normalising a normalised path changes nothing |
| `Paths.CanonOfCleanBare` | src/Updater.cs:161 | a rooted path of plain segments is its own normal form |
| `Paths.CanonOfCleanTrailing` | src/Updater.cs:161 | the same holds for such a path with a trailing separator |
| `Extraction.WriteEntry` | src/Updater.cs:171-177 | throws exactly when the destination's directory or an ancestor is a file, or when a file entry's destination is a directory. Otherwise the destination's directory and its ancestors exist afterwards and no directory is removed; a directory entry writes no file and any other entry sets exactly its destination to its contents |
| `Extraction.Admitted` | src/Updater.cs:166-169 | an admitted entry's resolved path is at least as long as the launcher folder, and a resolved path that starts with the folder exactly is admitted |
| `Extraction.CleanEntryAdmitted` | src/Updater.cs:161-169 | an entry named by plain segments, under a folder of plain segments, lands at the folder, a separator and its name, and is admitted, whatever the working directory |
| `Extraction.FirstEscape` | src/Updater.cs:159-169 | every entry before the returned position passes the containment test, and the entry at it fails |
| `Extraction.ExtractZip` | src/Updater.cs:148-180 | extraction completes only when every entry passes the containment test. A refusal names the first entry that fails it, and a clash with the disk names an entry before that one |
| `Extraction.ExtractZipWritesPrefix` | src/Updater.cs:159-178 | extraction is the unguarded writing of the entries before the first one that fails the test: a clash among them ends it there, and otherwise the refusal of that entry ends it. Nothing is written for the refused entry or after it, and nothing written earlier is undone |
| `Extraction.ExtractZipCompletesIff` | src/Updater.cs:159-178 | extraction completes exactly when every entry passes the containment test and writing them all meets no clash |
| `Extraction.FileInTheWayClashes` | src/Updater.cs:171 | an admitted entry whose destination directory is an existing file makes extraction throw at once, with the disk untouched |
| `Extraction.ExtractZipWritesOnlyAdmitted` | src/Updater.cs:161-177 | no directory is removed, and every file created or changed starts, ignoring case, with the launcher folder |
| `Extraction.ExtractZipKeepsWellFormed` | src/Updater.cs:171-177 | every file left behind sits in a directory that exists |
| `Extraction.WriteAllUntouched` | src/Updater.cs:159-178 | a path that no file entry resolves to keeps its presence and contents |
| `Extraction.WriteAllLastWriterWins` | src/Updater.cs:177 | when writing meets no clash, a file entry that no later file entry overrides ends up at its destination with exactly its contents |
| `Extraction.SiblingFolderAdmitted` | src/Updater.cs:161-166 | with launcher folder `/p/n`, without a trailing separator, the entry `../nX/f` resolves to `/p/nX/f`, outside the folder, and still passes the test, whatever the working directory |
| `Extraction.SiblingFolderRefusedUnderTrailingSeparator` | src/Updater.cs:161-169 | with launcher folder `/p/n/`, the same entry resolves to the same place and is refused |
| `Extraction.EscapeRefused` | src/Updater.cs:161-169 | an entry climbing two levels out of `/a/b` into a folder of another initial resolves to `/c/f` and is refused |
| `Patching.Classify` | src/Updater.cs:104-117 | a key without `/` fails, exactly then and with the key named |
| `Patching.ClassifyBySegment` | src/Updater.cs:106-117 | a key `segment/rest` whose segment is `xdelta` or `bsdiff` is shown as `rest`, uses that codec, and writes the key with every codec-name occurrence replaced by `chromapper`. Any other key is verbatim and written under `chromapper/` |
| `Patching.CodecKeyTarget` | src/Updater.cs:111 | replacing the codec name in `codec/rest` puts `chromapper` in front and replaces the occurrences in `rest` |
| `Patching.RouteTargetUnderRoot` | src/Updater.cs:104-117 | every routed target string starts with `chromapper/`. A codec entry whose shown path does not mention the codec name targets exactly `chromapper/` plus that path |
| `Patching.CodecNameReplacedEverywhere` | src/Updater.cs:108-112 | the key `xdelta/xdelta…` is shown as `xdelta…` but writes `chromapper/chromapper…` |
| `Patching.XdeltaRoute` | src/Updater.cs:108-112 | an xdelta key whose remaining path does not mention the codec name is shown as that path and targets `chromapper/` followed by it |
| `Patching.ParentSegmentsPassThrough` | src/Updater.cs:113-117 | a key `../x` is routed verbatim to `chromapper/../x`, which resolves to `x` directly in the working directory, outside `chromapper/`: there is no containment check |
| `Patching.ApplyEntry` | src/Updater.cs:100-143 | directory entries change nothing. A file entry that succeeds writes exactly its routed target resolved against the working directory, keeps every other file and every directory, and keeps the disk a tree |
| `Patching.ApplyEntryContent` | src/Updater.cs:122-141 | the new contents are the payload for a verbatim entry and the codec's output from the file at the resolved target otherwise. A verbatim entry succeeds exactly when the target can be written (its directory exists and it is not a directory); a codec entry also needs the file there and the codec's acceptance of the patch |
| `Patching.CodecEntryFailure` | src/Updater.cs:128-141 | on a disk that is a tree, a codec entry fails exactly when its base file is missing (with that error) or the codec rejects the patch (with a codec error) |
| `Patching.ApplyPatch` | src/Updater.cs:94-146 | applying a patch removes no file, changes no directory and keeps the disk a tree |
| `Patching.ApplyPatchWritesOnlyTargets` | src/Updater.cs:100-141 | every file a patch creates or changes is the resolved target of one of its file entries |
| `Patching.ApplyPatchSplits` | src/Updater.cs:100-144 | applying `first + rest` is applying `first` and then, unless that failed, `rest`. Processing is sequential and stops at the first failure without undoing earlier writes |
| `Patching.FailingEntryWritesNothing` | src/Updater.cs:100-144 | the failing entry leaves the disk as the entries before it left it, and its error ends the patch |
| `Orchestration.Hops` | src/Updater.cs:272-275 | one hop per plan entry, each from the previous destination (the installed build first) to the next |
| `Orchestration.InstallOutcome` | src/Updater.cs:45-68 | a reinstall completes exactly when the package downloads, every entry passes the containment test and writing the entries meets no clash. A failed download leaves the disk alone, and no directory is removed |
| `Orchestration.PatchOutcome` | src/Updater.cs:70-92 | a patch hop completes exactly when the patch downloads and applies without error. A failed download leaves the disk alone, and directories and existing files stay |
| `Orchestration.RunStage` | src/Updater.cs:45-92 | a stage is recorded as attempted and its disk effect is kept either way. The session keeps running exactly when the stage's file work completed, and only then do the reached version and the record (version, server) move to the stage's version; otherwise the session fails on that stage with both unchanged |
| `Orchestration.RunStageTracks` | src/Updater.cs:182-185 | the invariant is kept: a failure names the last stage, the record follows the last completed stage and nothing else, and the hops chain |
| `Orchestration.RunPatchesFollowsHops` | src/Updater.cs:272-275 | the hops attempted are a prefix of the plan's. All of them run when none fails, and the session then stands on the plan's last build |
| `Orchestration.RunPatchesTracks` | src/Updater.cs:272-275 | the hops keep the session invariant |
| `Orchestration.DoUpdate` | src/Updater.cs:243-279 | the session always ends. When the record names another server or the installed build is newer than desired, a reinstall of stable comes first. Only the stable build is ever reinstalled, and an exit leaves the installation on desired or on stable |
| `Orchestration.RunPatches` | src/Updater.cs:272-275 | running hops never exits the session, and a failed session is left as it is |
| `Orchestration.Fallback` | src/Updater.cs:257-269 | with no chain, exactly one stage is attempted, installing stable, when stable is not the installed build, and none when it is. The session then ends, and an exit stands on stable |
| `Orchestration.FollowPlan` | src/Updater.cs:272-278 | with a chain, at least one hop is attempted and only patch hops are added. An exit stands on desired |
| `Orchestration.Proceed` | src/Updater.cs:253-278 | after the optional reinstall, the session ends. Earlier stages are kept, only stable is installed, and an exit stands on desired or stable, or on the installed build when it was not below desired |
| `Orchestration.DoUpdateTracks` | src/Updater.cs:243-279 | the session invariant holds at the end, and an exit leaves a record naming the configured server |
| `Orchestration.NothingToDo` | src/Updater.cs:248-253 | on the desired build from the configured server, nothing is attempted and the session exits with everything as it was |
| `Orchestration.FollowsPlan` | src/Updater.cs:253-278 | without a reinstall, a plan's hops are attempted in order, stopping at the first failure. An exit stands on desired with a matching record |
| `Orchestration.NoPlanFallsBackToStable` | src/Updater.cs:255-269 | without a plan, stable is reinstalled unless it is the installed build, and an exit stands on stable |
| `Orchestration.FailedReinstallEnds` | src/Updater.cs:248-251 | a failed reinstall ends the session on that stage, with the version and record unchanged and the partial extraction kept |
| `Orchestration.PatchReadsExtractedFile` | src/Updater.cs:128-141 | when the launcher runs from its own folder, written with or without a trailing separator, a codec entry `xdelta/rest` reads and rewrites the very file that the package entry `chromapper/rest` was extracted to, provided `rest` does not mention `xdelta` |
| `Orchestration.ReinstallThenPlan` | src/Updater.cs:248-275 | after a completed reinstall below desired, the hops start from stable |
| `SelfReplace.LauncherAndParkedDiffer` | Linux/LinuxSpecific.cs:188-196 | the executable's path and the parked path differ unless the executable is itself named `CML-Linux.old` |
| `SelfReplace.Move` | Linux/LinuxSpecific.cs:133-134 | a move succeeds exactly when the source exists and the destination does not. The contents move from one to the other and every other file stays |
| `SelfReplace.Restart` | Linux/LinuxSpecific.cs:128-145 | both moves succeed exactly when the executable exists, no parked copy does, and the download either exists and is not the executable or is the parked path. On success the new executable is in place, the old one is parked and nothing else changes. The old executable stays recoverable from one of the two paths throughout |
| `SelfReplace.StaleParkedCopyBlocksRestart` | Linux/LinuxSpecific.cs:131-133 | a parked copy left behind makes the first move throw, and nothing moves |
| `SelfReplace.MissingDownloadLeavesOnlyParkedCopy` | Linux/LinuxSpecific.cs:133-134 | a missing download fails the second move after parking: the launcher path is empty and only the parked copy remains |
| `SelfReplace.CleanupUpdate` | Linux/LinuxSpecific.cs:147-161 | the parked copy is gone unless the delete fails, which leaves everything as it was. No other file is touched, and it never throws |
| `SelfReplace.CleanupIdempotent` | Linux/LinuxSpecific.cs:147-161 | cleaning up twice is cleaning up once |
| `SelfReplace.RestartThenCleanup` | Linux/LinuxSpecific.cs:128-161 | a restart followed by the next start's cleanup leaves the new executable in place and neither the parked copy nor the download behind |
| `LinuxShim.RewriteLine` | Linux/LinuxSpecific.cs:51-64 | the text is cut to the console width. When the target row lies strictly below row 0 (the cursor row minus the line number is positive), that row is overwritten and padded to the full width, leaving other rows alone; otherwise, row 0 included, the text becomes a new row |
| `LinuxShim.RewriteLineFitsWidth` | Linux/LinuxSpecific.cs:53-62 | an overwritten row is exactly the width wide, an appended row adds at most the width, and either starts with the text cut to the width |
| `LinuxShim.UpdateLabel` | Linux/LinuxSpecific.cs:66-94 | a bar remains exactly when the caption starts with neither `Extracting` nor `Patching`, and it is fresh. Any other caption is appended to the cursor's row, which is first finished when an old bar was showing; no other row is added or changed. A quiet caption rewrites the row above the cursor after finishing an old bar's row, or only finishes that row while the console is held |
| `LinuxShim.QuietLabelsShareOneRow` | Linux/LinuxSpecific.cs:66-86 | quiet captions shown one after another, without a bar, on a console of at least two rows, fold onto one row: the row above the cursor ends up holding the last caption cut and padded to the width, and nothing else on the screen changes |
| `LinuxShim.UpdateProgress` | Linux/LinuxSpecific.cs:96-102 | a report is appended to the bar if there is one, and otherwise changes nothing; the screen is untouched |
| `LinuxShim.ReportsSinceLastLabel` | Linux/LinuxSpecific.cs:66-102 | after a caption and any reports, the bar holds exactly those reports and the screen is as the caption left it; after a quiet caption the reports change nothing |
| `LinuxShim.ReportsAppend` | Linux/LinuxSpecific.cs:96-102 | reports accumulate on the bar in order and never touch the screen |
| `LinuxShim.PassThrough` | Linux/LinuxSpecific.cs:114 | empty exactly for no arguments. Otherwise it is a space followed by the arguments joined by spaces |
| `LinuxShim.LaunchArguments` | Linux/LinuxSpecific.cs:119 | the command line starts with `--launcher` and the quoted launcher path, followed by the passed-through arguments |
| `LinuxShim.PassThroughRoundTrip` | Linux/LinuxSpecific.cs:114 | arguments without spaces are recovered by splitting what follows the leading space |
| `LinuxShim.SpacedArgumentSplits` | Linux/LinuxSpecific.cs:114 | one argument `a b` and the two arguments `a`, `b` give the same command line, because nothing is quoted |
| `LinuxShim.ExeModeIsRwxRxRx` | Linux/LinuxSpecific.cs:112 | the mode is octal 755: everyone may read and execute, and only the owner may write |

## Left out

- HTTP, downloads, timeouts and the parsing of the XML bucket listing are
  left out. The listing and the archives are oracles in `Orchestration.Env`,
  and a failed download is `None`. The listing always answers: a failed
  listing request, which ends the session, is not modelled. `int.Parse` overflow on a listed key is not
  modelled.
- The xdelta and bsdiff codecs are opaque functions of the payload and the
  installed file, returning `None` where they throw. Reading the zip and patch archives is replaced by sequences
  of entries.
- The WinForms window, threads and `Monitor` are left out. Whether
  `Monitor.TryEnter` succeeds is the `acquired` parameter of
  `LinuxShim.UpdateLabel`.
- The `ProgressBar` class, `float` progress arithmetic and the cursor column
  are left out. The bar is the list of values reported to it (as `real`).
  The `UpdateLabel`/`Report` calls made from inside `ExtractZip` and
  `ApplyPatch` are not part of their models.
- `Process.Start`, `Environment.Exit`, `chmod` and the exit status are left
  out. `Exit` is modelled as the command line and mode it computes
  (`LinuxShim.LaunchArguments`, `LinuxShim.ExeMode`).
- `Main.Exit` after a session is the `Exited` status.
- The `Version` record's persistence format, `TempFile`, `GetCMConfig` and
  the Windows and macOS platform variants are left out.
- Paths are `/`-separated only:
  - there are no backslashes, drive letters or UNC paths;
  - `Path.GetFullPath` is a segment normaliser (`Paths.Canon`) applied after combining with the working directory, `Orchestration.Env.cwd` (`Paths.FullPath`);
  - it is a parameter of `Extraction`, which the session instantiates with `Paths.FullPathIn(cwd)`.
- Case-insensitive comparison folds ASCII letters only.
- `LinuxShim.Quiet` compares the caption's start ordinally, where
  `string.StartsWith(string)` compares by the current culture; the two agree
  on the launcher's own ASCII captions.
- `Text.IndexOf` finds the first `/` of a patch key ordinally, where
  `keyFilename.IndexOf("/")` at `src/Updater.cs:106` is the culture-sensitive
  string overload. The two differ only when a `/` is followed by a combining
  mark.
- `Planner.FindPath` requires `current < desired`, which its only caller
  checks. It also requires that every source listed for a destination
  between them lies below that destination. The code does not check this,
  and its search can recurse forever on a listing where two builds list each
  other.
- `Orchestration.DoUpdate` carries the same listing precondition, for the
  installed build and for stable.
- `LinuxShim.RewriteLine` requires a line number of at least 1. Its only
  caller passes 1.
- `Console.CursorTop` is modelled as the number of finished rows. The real
  value is a row of the terminal window. It starts non-zero on a terminal
  already in use, and stops growing once the terminal scrolls.
- `SelfReplace.Restart` states the final file layout only when the download
  path is not the parked path. A download at the parked path moves the old
  executable straight back, and only the success condition is stated for it.
- `Paths.DirName` returns `/` for the root and for a path without a
  separator. `Path.GetDirectoryName` returns `null` for the root, which the
  launcher never passes.

=== FILE: extraction.dfy ===
/** Extraction of a full package (`Updater.ExtractZip`): every entry is
    resolved against the launcher folder, checked by a case-insensitive
    string-prefix test, and written. The first entry that fails the test,
    or whose directory or file clashes with what is on disk, aborts the
    whole extraction. */
module Extraction {
  import opened Wrappers
  import opened Text
  import opened Paths
  import opened FileSystem

  /** One entry of the package archive: its `FullName` and contents. */
  datatype ZipEntry = ZipEntry(fullName: string, content: Bytes)

  /** `ZipArchiveEntry.Name`: the part of the full name after its last
      '/'; empty for a directory entry. */
  function EntryName(e: ZipEntry): string {
    e.fullName[LastIndexOf(e.fullName, '/') + 1..]
  }

  /** `Path.GetFullPath(Path.Combine(root, e.FullName))`, for a given
      `Path.GetFullPath` (the session passes `Paths.FullPathIn` of its
      working directory). */
  function Destination(fullPath: string -> string, root: string, e: ZipEntry): string {
    fullPath(Combine(root, e.fullName))
  }

  /** The containment test exactly as written: the resolved path must
      start with the launcher folder, ignoring case. */
  predicate Admitted(fullPath: string -> string, root: string, e: ZipEntry): (ok: bool)
    ensures ok ==> |root| <= |Destination(fullPath, root, e)|
    ensures StartsWith(Destination(fullPath, root, e), root) ==> ok
  {
    StartsWithIgnoreCase(Destination(fullPath, root, e), root)
  }

  /** The disk after one entry's work, and whether that work threw. */
  datatype Written = Written(disk: Disk, threw: bool)

  /** The work done for an admitted entry: `Directory.CreateDirectory` on
      the directory of its destination, then, unless its name is empty,
      `ExtractToFile` with overwrite, which creates or replaces the file
      like `File.WriteAllBytes`. Creating the directory throws when a file
      lies on its path; writing throws when the destination is a directory
      (one already there, or one just created). */
  function WriteEntry(fullPath: string -> string, root: string, e: ZipEntry, disk: Disk): (r: Written)
    ensures var path := Destination(fullPath, root, e);
      var needed := DirsOn(DirName(path));
      && (r.threw <==> !(disk.files.Keys !! needed) || (EntryName(e) != "" && path in disk.dirs + needed))
      && (!(disk.files.Keys !! needed) ==> r.disk == disk)
      && (disk.files.Keys !! needed ==> r.disk.dirs == disk.dirs + needed)
      && (r.threw || EntryName(e) == "" ==> r.disk.files == disk.files)
      && (!r.threw && EntryName(e) != "" ==> r.disk.files == disk.files[path := e.content])
    ensures disk.dirs <= r.disk.dirs
    ensures WellFormed(disk) ==> WellFormed(r.disk)
  {
    var path := Destination(fullPath, root, e);
    match CreateDirectory(disk, DirName(path))
    case None => Written(disk, true)
    case Some(made) =>
      if EntryName(e) == "" then Written(made, false)
      else
        assert ParentPresent(made, path);
        match WriteAllBytes(made, path, e.content)
        case None => Written(made, true)
        case Some(w) => Written(w, false)
  }

  /** Why an extraction threw, and at which entry: the containment test
      refused it, or its directory or file clashed with the disk. */
  datatype ExtractError = Refused(at: nat) | Clash(at: nat)

  /** The disk after an extraction, and what made it throw, if anything. */
  datatype Extracted = Extracted(disk: Disk, failure: Option<ExtractError>)

  /** The effect of writing every entry of `es` in order with no
      containment test, stopping at the first one whose work throws. */
  function WriteAll(fullPath: string -> string, root: string, es: seq<ZipEntry>, disk: Disk): (r: Extracted)
    ensures r.failure.None? || (r.failure.value.Clash? && r.failure.value.at < |es|)
    decreases |es|
  {
    if |es| == 0 then Extracted(disk, None)
    else
      var w := WriteEntry(fullPath, root, es[0], disk);
      if w.threw then Extracted(w.disk, Some(Clash(0)))
      else
        Later(WriteAll(fullPath, root, es[1..], w.disk))
  }

  /** An outcome of the entries after the first, seen from the whole
      sequence: the position of a failure moves up by one. */
  function Later(x: Extracted): (r: Extracted)
    ensures r.disk == x.disk && (r.failure.None? <==> x.failure.None?)
  {
    match x.failure
    case None => x
    case Some(Refused(j)) => Extracted(x.disk, Some(Refused(j + 1)))
    case Some(Clash(j)) => Extracted(x.disk, Some(Clash(j + 1)))
  }

  /** The position of the first entry that fails the containment test,
      or the number of entries when all pass. */
  function FirstEscape(fullPath: string -> string, root: string, entries: seq<ZipEntry>): (k: nat)
    ensures k <= |entries|
    ensures forall j :: 0 <= j < k ==> Admitted(fullPath, root, entries[j])
    ensures k < |entries| ==> !Admitted(fullPath, root, entries[k])
    decreases |entries|
  {
    if |entries| == 0 then 0
    else if !Admitted(fullPath, root, entries[0]) then 0
    else
      var k := FirstEscape(fullPath, root, entries[1..]);
      assert forall j :: 1 <= j < |entries| ==> entries[j] == entries[1..][j - 1];
      k + 1
  }

  /** `ExtractZip`: processes the entries in order and throws at the first
      one that fails the containment test or whose work throws. A refusal
      is reported at the first entry that fails the test; a clash can only
      come earlier. */
  function ExtractZip(fullPath: string -> string, root: string, entries: seq<ZipEntry>, disk: Disk): (r: Extracted)
    ensures var k := FirstEscape(fullPath, root, entries);
      && (r.failure.None? ==> k == |entries|)
      && (r.failure.Some? && r.failure.value.Refused? ==> r.failure.value.at == k && k < |entries|)
      && (r.failure.Some? && r.failure.value.Clash? ==> r.failure.value.at < k)
    decreases |entries|
  {
    if |entries| == 0 then Extracted(disk, None)
    else if !Admitted(fullPath, root, entries[0]) then Extracted(disk, Some(Refused(0)))
    else
      var w := WriteEntry(fullPath, root, entries[0], disk);
      if w.threw then Extracted(w.disk, Some(Clash(0)))
      else
        Later(ExtractZip(fullPath, root, entries[1..], w.disk))
  }

  /** Extraction is the unguarded writing of the entries before the first
      one that fails the test: it stops at a clash among them, and
      otherwise throws at that entry (if there is one) with nothing written
      for it or any later entry. */
  lemma {:induction false} ExtractZipWritesPrefix(fullPath: string -> string, root: string, entries: seq<ZipEntry>, disk: Disk)
    ensures var k := FirstEscape(fullPath, root, entries);
      var w := WriteAll(fullPath, root, entries[..k], disk);
      ExtractZip(fullPath, root, entries, disk) ==
        if w.failure.Some? || k == |entries| then w else Extracted(w.disk, Some(Refused(k)))
    decreases |entries|
  {
    if |entries| == 0 || !Admitted(fullPath, root, entries[0]) {
      assert entries[..0] == [];
    } else {
      var k := FirstEscape(fullPath, root, entries[1..]);
      var done := entries[..k + 1];
      assert done[0] == entries[0];
      assert done[1..] == entries[1..][..k];
      var w0 := WriteEntry(fullPath, root, entries[0], disk);
      if !w0.threw {
        ExtractZipWritesPrefix(fullPath, root, entries[1..], w0.disk);
        LaterOfPrefix(WriteAll(fullPath, root, done[1..], w0.disk), k, |entries| - 1);
      }
    }
  }

  /** `Later` commutes with the case split of `ExtractZipWritesPrefix`. */
  lemma LaterOfPrefix(w: Extracted, k: nat, n: nat)
    ensures Later(if w.failure.Some? || k == n then w else Extracted(w.disk, Some(Refused(k))))
      == if Later(w).failure.Some? || k + 1 == n + 1 then Later(w) else Extracted(Later(w).disk, Some(Refused(k + 1)))
  {
  }

  /** Extraction completes exactly when every entry passes the containment
      test and writing them all in order hits no clash. */
  lemma ExtractZipCompletesIff(fullPath: string -> string, root: string, entries: seq<ZipEntry>, disk: Disk)
    ensures ExtractZip(fullPath, root, entries, disk).failure.None? <==>
      && (forall j :: 0 <= j < |entries| ==> Admitted(fullPath, root, entries[j]))
      && WriteAll(fullPath, root, entries, disk).failure.None?
  {
    ExtractZipWritesPrefix(fullPath, root, entries, disk);
    var k := FirstEscape(fullPath, root, entries);
    if k == |entries| {
      assert entries[..k] == entries;
    }
  }

  /** A file already installed where an admitted entry needs a directory
      makes the extraction throw at that entry with the disk untouched. */
  lemma FileInTheWayClashes(fullPath: string -> string, root: string, e: ZipEntry, rest: seq<ZipEntry>, disk: Disk)
    requires Admitted(fullPath, root, e)
    requires DirName(Destination(fullPath, root, e)) in disk.files
    ensures ExtractZip(fullPath, root, [e] + rest, disk) == Extracted(disk, Some(Clash(0)))
  {
    var needed := DirsOn(DirName(Destination(fullPath, root, e)));
    assert DirName(Destination(fullPath, root, e)) in disk.files.Keys * needed;
    assert ([e] + rest)[0] == e;
  }

  /** Extraction never removes a directory, and every file it creates or
      changes passed the containment test. */
  lemma {:induction false} ExtractZipWritesOnlyAdmitted(fullPath: string -> string, root: string, entries: seq<ZipEntry>, disk: Disk)
    ensures disk.dirs <= ExtractZip(fullPath, root, entries, disk).disk.dirs
    ensures var after := ExtractZip(fullPath, root, entries, disk).disk;
      forall p :: p in after.files && (p !in disk.files || after.files[p] != disk.files[p]) ==>
        StartsWithIgnoreCase(p, root)
    decreases |entries|
  {
    if |entries| > 0 && Admitted(fullPath, root, entries[0]) {
      var w := WriteEntry(fullPath, root, entries[0], disk);
      if !w.threw {
        ExtractZipWritesOnlyAdmitted(fullPath, root, entries[1..], w.disk);
      }
    }
  }

  /** Extraction keeps the disk a tree. */
  lemma {:induction false} ExtractZipKeepsWellFormed(fullPath: string -> string, root: string, entries: seq<ZipEntry>, disk: Disk)
    requires WellFormed(disk)
    ensures WellFormed(ExtractZip(fullPath, root, entries, disk).disk)
    decreases |entries|
  {
    if |entries| > 0 && Admitted(fullPath, root, entries[0]) {
      var w := WriteEntry(fullPath, root, entries[0], disk);
      if !w.threw {
        ExtractZipKeepsWellFormed(fullPath, root, entries[1..], w.disk);
      }
    }
  }

  /** A path that no file entry of `es` resolves to is left as it was. */
  lemma {:induction false} WriteAllUntouched(fullPath: string -> string, root: string, es: seq<ZipEntry>, disk: Disk, p: string)
    requires forall j :: 0 <= j < |es| && EntryName(es[j]) != "" ==> Destination(fullPath, root, es[j]) != p
    ensures (p in WriteAll(fullPath, root, es, disk).disk.files <==> p in disk.files)
    ensures p in disk.files ==> WriteAll(fullPath, root, es, disk).disk.files[p] == disk.files[p]
    decreases |es|
  {
    if |es| > 0 {
      var w := WriteEntry(fullPath, root, es[0], disk);
      assert (p in w.disk.files <==> p in disk.files) && (p in disk.files ==> w.disk.files[p] == disk.files[p]) by {
        if EntryName(es[0]) != "" {
          assert Destination(fullPath, root, es[0]) != p;
        }
      }
      if !w.threw {
        assert forall j :: 0 <= j < |es[1..]| && EntryName(es[1..][j]) != "" ==> Destination(fullPath, root, es[1..][j]) != p by {
          assert forall j :: 0 <= j < |es[1..]| ==> es[1..][j] == es[j + 1];
        }
        WriteAllUntouched(fullPath, root, es[1..], w.disk, p);
      }
    }
  }

  /** When no entry clashes, a file entry that no later file entry
      overrides ends up at its destination with exactly its contents. */
  lemma {:induction false} WriteAllLastWriterWins(fullPath: string -> string, root: string, es: seq<ZipEntry>, disk: Disk, k: nat)
    requires k < |es| && EntryName(es[k]) != ""
    requires WriteAll(fullPath, root, es, disk).failure.None?
    requires forall j :: k < j < |es| && EntryName(es[j]) != "" ==> Destination(fullPath, root, es[j]) != Destination(fullPath, root, es[k])
    ensures Destination(fullPath, root, es[k]) in WriteAll(fullPath, root, es, disk).disk.files
    ensures WriteAll(fullPath, root, es, disk).disk.files[Destination(fullPath, root, es[k])] == es[k].content
    decreases |es|
  {
    var w := WriteEntry(fullPath, root, es[0], disk);
    var tail := es[1..];
    WriteAllStep(fullPath, root, es, disk);
    if k == 0 {
      FirstWriterLands(fullPath, root, es, disk);
    } else {
      OverridesShift(fullPath, root, es, k);
      WriteAllLastWriterWins(fullPath, root, tail, w.disk, k - 1);
    }
  }

  /** Dropping the first entry keeps the "no later override" condition,
      one position earlier. */
  lemma OverridesShift(fullPath: string -> string, root: string, es: seq<ZipEntry>, k: nat)
    requires 0 < k < |es| && EntryName(es[k]) != ""
    requires forall j :: k < j < |es| && EntryName(es[j]) != "" ==> Destination(fullPath, root, es[j]) != Destination(fullPath, root, es[k])
    ensures es[1..][k - 1] == es[k]
    ensures forall j :: k - 1 < j < |es[1..]| && EntryName(es[1..][j]) != "" ==> Destination(fullPath, root, es[1..][j]) != Destination(fullPath, root, es[1..][k - 1])
  {
    assert forall j :: 0 <= j < |es[1..]| ==> es[1..][j] == es[j + 1];
  }

  /** Writing with no clash is writing the first entry, then the rest. */
  lemma WriteAllStep(fullPath: string -> string, root: string, es: seq<ZipEntry>, disk: Disk)
    requires |es| > 0 && WriteAll(fullPath, root, es, disk).failure.None?
    ensures var w := WriteEntry(fullPath, root, es[0], disk);
      && !w.threw
      && WriteAll(fullPath, root, es, disk) == WriteAll(fullPath, root, es[1..], w.disk)
  {
  }

  /** The first entry lands when no later entry overrides it. */
  lemma FirstWriterLands(fullPath: string -> string, root: string, es: seq<ZipEntry>, disk: Disk)
    requires |es| > 0 && EntryName(es[0]) != ""
    requires WriteAll(fullPath, root, es, disk).failure.None?
    requires forall j :: 0 < j < |es| && EntryName(es[j]) != "" ==> Destination(fullPath, root, es[j]) != Destination(fullPath, root, es[0])
    ensures Destination(fullPath, root, es[0]) in WriteAll(fullPath, root, es, disk).disk.files
    ensures WriteAll(fullPath, root, es, disk).disk.files[Destination(fullPath, root, es[0])] == es[0].content
  {
    var w := WriteEntry(fullPath, root, es[0], disk);
    var tail := es[1..];
    var dest := Destination(fullPath, root, es[0]);
    WriteAllStep(fullPath, root, es, disk);
    assert dest in w.disk.files && w.disk.files[dest] == es[0].content;
    assert forall j :: 0 <= j < |tail| && EntryName(tail[j]) != "" ==> Destination(fullPath, root, tail[j]) != dest by {
      assert forall j :: 0 <= j < |tail| ==> tail[j] == es[j + 1];
    }
    WriteAllUntouched(fullPath, root, tail, w.disk, dest);
  }

  /** An entry named by plain segments, under a launcher folder of plain
      segments, lands below that folder and is admitted, whatever the
      working directory. */
  lemma CleanEntryAdmitted(cwd: string, rootSegs: seq<string>, nameSegs: seq<string>, content: Bytes)
    requires |rootSegs| >= 1 && Clean(rootSegs) && |nameSegs| >= 1 && Clean(nameSegs)
    ensures var root := "/" + Join(rootSegs, '/');
      var e := ZipEntry(Join(nameSegs, '/'), content);
      && Destination(FullPathIn(cwd), root, e) == root + "/" + Join(nameSegs, '/')
      && Admitted(FullPathIn(cwd), root, e)
  {
    var root := "/" + Join(rootSegs, '/');
    var name := Join(nameSegs, '/');
    JoinedEndsInSegment(rootSegs);
    JoinedRelative(nameSegs);
    CanonOfCleanPair(rootSegs, nameSegs);
    LandsBelow(cwd, root, name, content);
  }

  /** A relative name whose combination with the folder is already in
      normal form lands there and is admitted. */
  lemma LandsBelow(cwd: string, root: string, name: string, content: Bytes)
    requires |root| > 0 && root[0] == '/' && root[|root| - 1] != '/' && |name| > 0 && name[0] != '/'
    requires Canon(root + "/" + name) == root + "/" + name
    ensures Destination(FullPathIn(cwd), root, ZipEntry(name, content)) == root + "/" + name
    ensures Admitted(FullPathIn(cwd), root, ZipEntry(name, content))
  {
    var placed := root + "/" + name;
    CombineRelative(root, name);
    FullPathOfRooted(cwd, placed);
    assert placed == root + ("/" + name);
    ExtensionStartsWith(root, "/" + name);
  }

  /** A join of plain segments is a non-empty relative path. */
  lemma JoinedRelative(segs: seq<string>)
    requires |segs| >= 1 && Clean(segs)
    ensures var name := Join(segs, '/'); |name| > 0 && name[0] != '/'
  {
    JoinFirst(segs, '/');
    assert segs[0][0] in segs[0];
  }

  /** Combining a folder without a trailing separator with a relative path. */
  lemma CombineRelative(root: string, name: string)
    requires |root| > 0 && root[|root| - 1] != '/' && |name| > 0 && name[0] != '/'
    ensures Combine(root, name) == root + "/" + name
  {
  }

  /** A clean folder followed by a clean relative path is in normal form. */
  lemma CanonOfCleanPair(rootSegs: seq<string>, nameSegs: seq<string>)
    requires |rootSegs| >= 1 && Clean(rootSegs) && |nameSegs| >= 1 && Clean(nameSegs)
    ensures var placed := "/" + Join(rootSegs, '/') + "/" + Join(nameSegs, '/');
      |placed| > 0 && placed[0] == '/' && Canon(placed) == placed
  {
    var all := rootSegs + nameSegs;
    CleanAppend(rootSegs, nameSegs);
    JoinAppend(rootSegs, nameSegs, '/');
    CanonOfCleanBare(all);
    SlashJoined("/" + Join(rootSegs, '/'), Join(nameSegs, '/'), "/" + Join(all, '/'));
  }


  lemma CleanAppend(xs: seq<string>, ys: seq<string>)
    requires Clean(xs) && Clean(ys)
    ensures Clean(xs + ys)
  {
    assert forall k :: 0 <= k < |xs + ys| ==> (xs + ys)[k] == if k < |xs| then xs[k] else ys[k - |xs|];
  }

  lemma SlashJoined(root: string, name: string, whole: string)
    requires |root| > 0 && whole == root + ['/'] + name
    ensures root + "/" + name == whole && whole[0] == root[0]
  {
  }

  /** The test compares strings, not path segments: with the launcher
      folder `/parent/name`, written without a trailing separator, an
      entry `../nameX/file` resolves into the sibling folder
      `/parent/nameX` and is still admitted, whatever the working
      directory. */
  lemma SiblingFolderAdmitted(cwd: string, parent: string, name: string, suffix: string, file: string, content: Bytes)
    requires Segment(parent) && Segment(name) && Segment(name + suffix) && Segment(file)
    ensures var root := "/" + parent + "/" + name;
      var e := ZipEntry("../" + name + suffix + "/" + file, content);
      && Destination(FullPathIn(cwd), root, e) == "/" + parent + "/" + (name + suffix) + "/" + file
      && Admitted(FullPathIn(cwd), root, e)
  {
    var root := "/" + parent + "/" + name;
    SiblingResolved(cwd, parent, name, suffix, file, content);
    SiblingPath(parent, name, suffix, file);
    ExtensionStartsWith(root, suffix + "/" + file);
  }

  /** The same entry is refused when the launcher folder is written with a
      trailing separator, as a folder taken from `AppContext.BaseDirectory`
      is: the destination is the same, but the separator in the folder
      meets the first character of the suffix. */
  lemma SiblingFolderRefusedUnderTrailingSeparator(cwd: string, parent: string, name: string, suffix: string, file: string, content: Bytes)
    requires Segment(parent) && Segment(name) && Segment(name + suffix) && Segment(file) && |suffix| > 0
    ensures var root := "/" + parent + "/" + name + "/";
      var e := ZipEntry("../" + name + suffix + "/" + file, content);
      && Destination(FullPathIn(cwd), root, e) == "/" + parent + "/" + (name + suffix) + "/" + file
      && !Admitted(FullPathIn(cwd), root, e)
  {
    var bare := "/" + parent + "/" + name;
    var e := ZipEntry("../" + name + suffix + "/" + file, content);
    SiblingResolved(cwd, parent, name, suffix, file, content);
    assert Combine(bare + "/", e.fullName) == Combine(bare, e.fullName) by {
      assert e.fullName[0] == '.';
      assert bare[|bare| - 1] == name[|name| - 1];
      assert name[|name| - 1] in name;
      CombineUnderSeparator(bare, e.fullName);
    }
    SiblingPath(parent, name, suffix, file);
    assert suffix[0] != '/' by {
      assert (name + suffix)[|name|] == suffix[0];
    }
    SuffixMeetsSeparator(bare, suffix + "/" + file);
  }

  /** Where the sibling entry lands, from the launcher folder `/parent/name`. */
  lemma SiblingResolved(cwd: string, parent: string, name: string, suffix: string, file: string, content: Bytes)
    requires Segment(parent) && Segment(name) && Segment(name + suffix) && Segment(file)
    ensures Destination(FullPathIn(cwd), "/" + parent + "/" + name, ZipEntry("../" + name + suffix + "/" + file, content))
      == "/" + parent + "/" + (name + suffix) + "/" + file
  {
    var root := "/" + parent + "/" + name;
    var name2 := "../" + name + suffix + "/" + file;
    assert name2 == "../" + (name + suffix) + "/" + file;
    SiblingCombined(parent, name, name + suffix, file);
    FullPathOfRooted(cwd, Combine(root, name2));
    SiblingDestination(parent, name, name + suffix, file);
  }

  /** The sibling's path continues the launcher folder's. */
  lemma SiblingPath(parent: string, name: string, suffix: string, file: string)
    ensures "/" + parent + "/" + (name + suffix) + "/" + file == ("/" + parent + "/" + name) + (suffix + "/" + file)
  {
    var head := "/" + parent + "/";
    var tail := "/" + file;
    assert head + (name + suffix) == (head + name) + suffix;
    assert (head + name) + suffix + tail == (head + name) + (suffix + tail);
    assert "/" + file == tail;
    assert suffix + "/" + file == suffix + tail;
  }

  /** A folder with a trailing separator is not a prefix of a path that
      continues the folder's name with something other than a separator. */
  lemma SuffixMeetsSeparator(bare: string, more: string)
    requires |more| > 0 && more[0] != '/'
    ensures !StartsWithIgnoreCase(bare + more, bare + "/")
  {
    var at := |bare|;
    assert (bare + more)[at] == more[0];
    assert (bare + "/")[at] == '/';
  }

  /** Any string starts with itself followed by more. */
  lemma ExtensionStartsWith(root: string, more: string)
    ensures StartsWithIgnoreCase(root + more, root)
  {
    assert forall i :: 0 <= i < |root| ==> (root + more)[i] == root[i];
  }

  lemma SiblingDestination(a: string, b: string, other: string, f: string)
    requires Segment(a) && Segment(b) && Segment(other) && Segment(f)
    ensures Canon(Combine("/" + a + "/" + b, "../" + other + "/" + f)) == "/" + a + "/" + other + "/" + f
  {
    SiblingCombined(a, b, other, f);
    CanonUpAndOver(a, b, other, f);
    JoinThree(a, other, f, '/');
  }

  lemma SiblingCombined(a: string, b: string, other: string, f: string)
    requires Segment(b)
    ensures Combine("/" + a + "/" + b, "../" + other + "/" + f) == "/" + Join([a, b, "..", other, f], '/')
  {
    var root := "/" + a + "/" + b;
    var up := "../" + other + "/" + f;
    assert Combine(root, up) == root + "/" + up by {
      assert root[|root| - 1] == b[|b| - 1];
      assert b[|b| - 1] in b;
      assert up[0] == '.';
    }
    assert root + "/" + up == "/" + Join([a, b, "..", other, f], '/') by {
      JoinFive(a, b, "..", other, f, '/');
      assert "/" + up == "/../" + other + "/" + f;
    }
  }

  /** An entry that climbs out of the launcher folder `/a/b` resolves to
      its real target and is refused when that target is elsewhere. */
  lemma EscapeRefused(cwd: string, a: string, b: string, c: string, f: string, content: Bytes)
    requires Segment(a) && Segment(b) && Segment(c) && Segment(f)
    requires Upper(c[0]) != Upper(a[0])
    ensures var root := "/" + a + "/" + b;
      var e := ZipEntry("../../" + c + "/" + f, content);
      && Destination(FullPathIn(cwd), root, e) == "/" + c + "/" + f
      && !Admitted(FullPathIn(cwd), root, e)
  {
    var root := "/" + a + "/" + b;
    var e := ZipEntry("../../" + c + "/" + f, content);
    EscapeCombined(a, b, c, f);
    FullPathOfRooted(cwd, Combine(root, e.fullName));
    EscapeDestination(a, b, c, f);
    var dest := "/" + c + "/" + f;
    assert dest[1] == c[0] && root[1] == a[0];
  }

  lemma EscapeDestination(a: string, b: string, c: string, f: string)
    requires Segment(a) && Segment(b) && Segment(c) && Segment(f)
    ensures Canon(Combine("/" + a + "/" + b, "../../" + c + "/" + f)) == "/" + c + "/" + f
  {
    EscapeCombined(a, b, c, f);
    CanonUpTwice(a, b, c, f);
    JoinCons(c, [f], '/');
    assert [c, f] == [c] + [f];
  }

  lemma EscapeCombined(a: string, b: string, c: string, f: string)
    requires Segment(b)
    ensures Combine("/" + a + "/" + b, "../../" + c + "/" + f) == "/" + Join([a, b, "..", "..", c, f], '/')
  {
    var root := "/" + a + "/" + b;
    var up := "../../" + c + "/" + f;
    assert Combine(root, up) == root + "/" + up by {
      assert root[|root| - 1] == b[|b| - 1];
      assert b[|b| - 1] in b;
      assert up[0] == '.';
    }
    assert root + "/" + up == "/" + (a + "/" + (b + "/../../" + c + "/" + f)) by {
      assert "/" + up == "/../../" + c + "/" + f;
    }
    var tail := Join([b, "..", "..", c, f], '/');
    assert Join([a, b, "..", "..", c, f], '/') == a + "/" + tail by {
      JoinCons(a, [b, "..", "..", c, f], '/');
      assert [a, b, "..", "..", c, f] == [a] + [b, "..", "..", c, f];
    }
    assert tail == b + "/../../" + c + "/" + f by {
      JoinFive(b, "..", "..", c, f, '/');
    }
  }

  /** Going up two levels from `/a/b` and into `c` lands in `/c`. */
  lemma CanonUpTwice(a: string, b: string, c: string, f: string)
    requires Segment(a) && Segment(b) && Segment(c) && Segment(f)
    ensures Canon("/" + Join([a, b, "..", "..", c, f], '/')) == "/" + Join([c, f], '/')
  {
    ResolveTwoUp(a, b, c, f);
    CanonOfResolved([a, b, "..", "..", c, f], [c, f]);
  }

  /** Going up one level and into `other` lands in the sibling folder. */
  lemma CanonUpAndOver(a: string, b: string, other: string, f: string)
    requires Segment(a) && Segment(b) && Segment(other) && Segment(f)
    ensures Canon("/" + Join([a, b, "..", other, f], '/')) == "/" + Join([a, other, f], '/')
  {
    ResolveSteps(a, b, other, f);
    CanonOfResolved([a, b, "..", other, f], [a, other, f]);
  }

}

=== FILE: filesystem.dfy ===
/** The local disk as an immutable value: file contents by absolute path
    plus the set of directories that exist. Paths are those `System.IO`
    works on once it has resolved them with `Path.GetFullPath`. */
module FileSystem {
  import opened Wrappers
  import opened Text

  newtype byte = x: int | 0 <= x < 256

  type Bytes = seq<byte>

  /** File contents by path. */
  type Files = map<string, Bytes>

  datatype Disk = Disk(files: Files, dirs: set<string>)

  /** Whether the directory that would hold `p` exists. A path without a
      separator, or one directly under '/', lives in the file-system root,
      which always exists. */
  predicate ParentPresent(disk: Disk, p: string) {
    var i := LastIndexOf(p, '/');
    i <= 0 || p[..i] in disk.dirs
  }

  /** The disk is a tree: every file and every directory sits in a
      directory that exists, and no path is both a file and a directory. */
  ghost predicate WellFormed(disk: Disk) {
    && (forall p :: p in disk.files ==> ParentPresent(disk, p))
    && (forall d :: d in disk.dirs ==> ParentPresent(disk, d))
    && disk.files.Keys !! disk.dirs
  }

  /** `File.WriteAllBytes(p, data)`: creates or overwrites the file. It
      throws (here `None`) when the file's directory is missing or when `p`
      is a directory, and never creates a directory. */
  function WriteAllBytes(disk: Disk, p: string, data: Bytes): (r: Option<Disk>)
    ensures r.Some? <==> ParentPresent(disk, p) && p !in disk.dirs
    ensures r.Some? ==> r.value.dirs == disk.dirs && p in r.value.files && r.value.files[p] == data
    ensures r.Some? ==> forall q :: q != p ==> (q in r.value.files <==> q in disk.files)
    ensures r.Some? ==> forall q :: q != p && q in disk.files ==> r.value.files[q] == disk.files[q]
    ensures r.Some? && WellFormed(disk) ==> WellFormed(r.value)
  {
    if ParentPresent(disk, p) && p !in disk.dirs then Some(disk.(files := disk.files[p := data])) else None
  }

  /** The directories `Directory.CreateDirectory(d)` makes sure exist: `d`
      itself and every non-empty prefix of `d` that ends just before a
      separator. */
  function DirsOn(d: string): set<string> {
    {d} + ProperPrefixes(d)
  }

  /** `Directory.CreateDirectory(d)`: creates `d` and every missing
      ancestor. It throws (here `None`) when `d` or one of its ancestors is
      a file. */
  function CreateDirectory(disk: Disk, d: string): (r: Option<Disk>)
    ensures r.Some? <==> disk.files.Keys !! DirsOn(d)
    ensures r.Some? ==> r.value == disk.(dirs := disk.dirs + DirsOn(d))
    ensures r.Some? && WellFormed(disk) ==> WellFormed(r.value)
    decreases |d|
  {
    DirsOnStep(d);
    AddDirsKeepsWellFormed(disk, d);
    if d in disk.files then None
    else
      var i := LastIndexOf(d, '/');
      var here := disk.(dirs := disk.dirs + {d});
      if i <= 0 then Some(here) else CreateDirectory(here, d[..i])
  }

  /** The directories on `d` are `d` and those on its parent. */
  lemma DirsOnStep(d: string)
    ensures var i := LastIndexOf(d, '/');
      DirsOn(d) == {d} + (if i <= 0 then {} else DirsOn(d[..i]))
  {
    var i := LastIndexOf(d, '/');
    SlashesUpToLast(d);
    if 0 < i {
      ProperPrefixesStep(d, i);
    } else {
      NoProperPrefixes(d);
    }
  }

  /** Without a separator after position 0 there is no proper prefix. */
  lemma NoProperPrefixes(d: string)
    requires forall j :: 0 < j < |d| ==> d[j] != '/'
    ensures ProperPrefixes(d) == {}
  {
  }

  /** The non-empty prefixes of `d` that end just before a separator. */
  function ProperPrefixes(d: string): set<string> {
    set j | 0 < j < |d| && d[j] == '/' :: d[..j]
  }

  /** No separator after position 0 lies beyond the last one. */
  lemma SlashesUpToLast(d: string)
    ensures forall j :: 0 < j < |d| && d[j] == '/' ==> 0 < LastIndexOf(d, '/') && j <= LastIndexOf(d, '/')
  {
  }

  /** With the last separator at `i > 0`, the proper prefixes of `d` are
      `d[..i]` and the proper prefixes of `d[..i]`. */
  lemma ProperPrefixesStep(d: string, i: int)
    requires 0 < i < |d| && d[i] == '/'
    requires forall j :: 0 < j < |d| && d[j] == '/' ==> j <= i
    ensures ProperPrefixes(d) == {d[..i]} + ProperPrefixes(d[..i])
  {
    var p := d[..i];
    forall x | x in ProperPrefixes(d)
      ensures x in {p} + ProperPrefixes(p)
    {
      var j :| 0 < j < |d| && d[j] == '/' && x == d[..j];
      if j < i {
        assert p[j] == d[j] && p[..j] == d[..j];
      }
    }
    forall x | x in ProperPrefixes(p)
      ensures x in ProperPrefixes(d)
    {
      var j :| 0 < j < |p| && p[j] == '/' && x == p[..j];
      assert d[j] == '/' && x == d[..j];
    }
  }

  /** The parent of every directory on `d` is on `d` as well. */
  lemma DirsOnClosed(d: string)
    ensures forall a :: a in DirsOn(d) ==> LastIndexOf(a, '/') <= 0 || a[..LastIndexOf(a, '/')] in DirsOn(d)
  {
    forall a | a in DirsOn(d) && LastIndexOf(a, '/') > 0
      ensures a[..LastIndexOf(a, '/')] in DirsOn(d)
    {
      var i := LastIndexOf(a, '/');
      var j: int := if a == d then |d| else var j :| 0 < j < |d| && d[j] == '/' && a == d[..j]; j;
      assert a == d[..j];
      assert d[i] == a[i] == '/' && a[..i] == d[..i];
    }
  }

  /** Adding the directories on `d`, none of them a file, keeps the disk a tree. */
  lemma AddDirsKeepsWellFormed(disk: Disk, d: string)
    ensures WellFormed(disk) && disk.files.Keys !! DirsOn(d) ==> WellFormed(disk.(dirs := disk.dirs + DirsOn(d)))
  {
    DirsOnClosed(d);
  }
}

=== FILE: linuxshim.dfy ===
/** The Linux console front end of the launcher: the status line and
    progress bar (`UpdateLabel`, `UpdateProgress`, `RewriteLine`) and the
    command line that starts the editor (`Exit`). */
module LinuxShim {
  import opened Wrappers
  import opened Text

  /** The console as rows of text: `rows` are the finished rows above the
      cursor, `pending` the text already written on the cursor's row. The
      cursor's row number (`Console.CursorTop`) is `|rows|`. */
  datatype Screen = Screen(rows: seq<string>, pending: string)

  /** `Console.Write(text)`. */
  function Write(screen: Screen, text: string): Screen {
    screen.(pending := screen.pending + text)
  }

  /** `Console.WriteLine(text)`: finishes the cursor's row. */
  function WriteLine(screen: Screen, text: string): Screen {
    Screen(screen.rows + [screen.pending + text], "")
  }

  /** `new string(' ', n)`. */
  function Spaces(n: nat): (r: string)
    ensures |r| == n && forall i :: 0 <= i < n ==> r[i] == ' '
  {
    if n == 0 then "" else Spaces(n - 1) + " "
  }

  /** `RewriteLine(lineNumber, text)` on a console `width` columns wide:
      the text is cut to the width; if the row `lineNumber` rows above the
      cursor exists it is overwritten and padded with spaces to the full
      width, otherwise the text is written as a new row. */
  function RewriteLine(screen: Screen, width: nat, lineNumber: int, text: string): (r: Screen)
    requires lineNumber >= 1
    ensures var t := text[..if |text| < width then |text| else width];
      if |screen.rows| - lineNumber > 0 then
        && r.pending == screen.pending
        && |r.rows| == |screen.rows|
        && r.rows[|screen.rows| - lineNumber] == t + Spaces(width - |t|)
        && |r.rows[|screen.rows| - lineNumber]| == width
        && (forall i :: 0 <= i < |r.rows| && i != |screen.rows| - lineNumber ==> r.rows[i] == screen.rows[i])
      else
        r == Screen(screen.rows + [screen.pending + t], "")
  {
    var t := text[..if |text| < width then |text| else width];
    var top := |screen.rows|;
    if top - lineNumber > 0 then
      screen.(rows := screen.rows[top - lineNumber := t + Spaces(width - |t|)])
    else
      WriteLine(screen, t)
  }

  /** What a rewritten or appended row holds never exceeds what was written
      plus the text cut to the width. */
  lemma RewriteLineFitsWidth(screen: Screen, width: nat, lineNumber: int, text: string)
    requires lineNumber >= 1
    ensures var r := RewriteLine(screen, width, lineNumber, text);
      |screen.rows| - lineNumber > 0 ==> |r.rows[|screen.rows| - lineNumber]| == width
    ensures var r := RewriteLine(screen, width, lineNumber, text);
      |screen.rows| - lineNumber <= 0 ==> |r.rows[|r.rows| - 1]| <= |screen.pending| + width
    ensures var r := RewriteLine(screen, width, lineNumber, text);
      StartsWith(text, (if |screen.rows| - lineNumber > 0 then r.rows[|screen.rows| - lineNumber] else r.rows[|r.rows| - 1][|screen.pending|..])[..if |text| < width then |text| else width])
  {
    var r := RewriteLine(screen, width, lineNumber, text);
    var n := if |text| < width then |text| else width;
    var t := text[..n];
    if |screen.rows| - lineNumber > 0 {
      assert r.rows[|screen.rows| - lineNumber][..n] == t;
    } else {
      assert r.rows[|r.rows| - 1] == screen.pending + t;
      assert r.rows[|r.rows| - 1][|screen.pending|..] == t;
      assert t[..n] == t;
    }
  }

  /** The progress bar: every value reported to it, in order. */
  datatype Bar = Bar(reported: seq<real>)

  /** The shim's console state: the screen and the current progress bar. */
  datatype Shim = Shim(screen: Screen, bar: Option<Bar>)

  /** Labels shown on the rewritten status row, without a progress bar. */
  predicate Quiet(caption: string) {
    StartsWith(caption, "Extracting") || StartsWith(caption, "Patching")
  }

  /** `UpdateLabel(caption)`: an existing bar is disposed and its row
      finished; a quiet caption then rewrites the row above the cursor
      (skipped when another thread holds the console, `acquired` false) and
      leaves no bar; any other caption is written and gets a fresh bar. */
  function UpdateLabel(shim: Shim, width: nat, caption: string, acquired: bool): (r: Shim)
    ensures r.bar.None? <==> Quiet(caption)
    ensures r.bar.Some? ==> r.bar.value.reported == []
    ensures !Quiet(caption) ==> r.screen.pending == (if shim.bar.Some? then "" else shim.screen.pending) + caption
    ensures !Quiet(caption) ==> r.screen.rows == (if shim.bar.Some? then shim.screen.rows + [shim.screen.pending] else shim.screen.rows)
    ensures Quiet(caption) && !acquired ==> r.screen == (if shim.bar.Some? then WriteLine(shim.screen, "") else shim.screen)
    ensures Quiet(caption) && acquired ==> r.screen == RewriteLine(if shim.bar.Some? then WriteLine(shim.screen, "") else shim.screen, width, 1, caption)
    ensures |r.screen.rows| >= |shim.screen.rows|
  {
    var cleared := if shim.bar.Some? then Shim(WriteLine(shim.screen, ""), None) else shim;
    if Quiet(caption) then
      if acquired then cleared.(screen := RewriteLine(cleared.screen, width, 1, caption)) else cleared
    else
      assert shim.screen.pending + "" == shim.screen.pending;
      Shim(Write(cleared.screen, caption), Some(Bar([])))
  }

  /** Showing captions one after another, each time with the console lock
      acquired. */
  function LabelAll(shim: Shim, width: nat, captions: seq<string>): Shim
    decreases |captions|
  {
    if |captions| == 0 then shim else LabelAll(UpdateLabel(shim, width, captions[0], true), width, captions[1..])
  }

  /** Quiet captions shown without a bar on a console with at least two
      rows fold onto one status row: the row just above the cursor ends up
      holding the last caption, cut and padded to the width, and nothing
      else on the screen changes. */
  lemma {:induction false} QuietLabelsShareOneRow(shim: Shim, width: nat, captions: seq<string>)
    requires shim.bar.None? && |shim.screen.rows| >= 2 && |captions| >= 1
    requires forall k :: 0 <= k < |captions| ==> Quiet(captions[k])
    ensures var r := LabelAll(shim, width, captions);
      var n := |shim.screen.rows|;
      var last := captions[|captions| - 1];
      var t := last[..if |last| < width then |last| else width];
      && r.bar.None?
      && r.screen.pending == shim.screen.pending
      && |r.screen.rows| == n
      && r.screen.rows[n - 1] == t + Spaces(width - |t|)
      && (forall i :: 0 <= i < n - 1 ==> r.screen.rows[i] == shim.screen.rows[i])
    decreases |captions|
  {
    var next := UpdateLabel(shim, width, captions[0], true);
    if |captions| > 1 {
      assert forall k :: 0 <= k < |captions[1..]| ==> captions[1..][k] == captions[k + 1];
      QuietLabelsShareOneRow(next, width, captions[1..]);
      assert captions[1..][|captions[1..]| - 1] == captions[|captions| - 1];
    }
  }

  /** `UpdateProgress(progress)`: forwarded to the bar if there is one. */
  function UpdateProgress(shim: Shim, progress: real): (r: Shim)
    ensures r.screen == shim.screen
    ensures r.bar.Some? <==> shim.bar.Some?
    ensures shim.bar.Some? ==> r.bar.value.reported == shim.bar.value.reported + [progress]
    ensures shim.bar.None? ==> r == shim
  {
    match shim.bar
    case None => shim
    case Some(b) => shim.(bar := Some(Bar(b.reported + [progress])))
  }

  /** Reporting a sequence of values, one after another. */
  function ReportAll(shim: Shim, values: seq<real>): Shim
    decreases |values|
  {
    if |values| == 0 then shim else ReportAll(UpdateProgress(shim, values[0]), values[1..])
  }

  /** After a caption and any number of progress reports, the bar holds
      exactly the reports made since that caption, and the reports leave the
      screen alone; after a quiet caption there is no bar and the reports
      change nothing. */
  lemma {:induction false} ReportsSinceLastLabel(shim: Shim, width: nat, caption: string, acquired: bool, values: seq<real>)
    ensures var labelled := UpdateLabel(shim, width, caption, acquired);
      var r := ReportAll(labelled, values);
      && r.screen == labelled.screen
      && (Quiet(caption) ==> r == labelled)
      && (!Quiet(caption) ==> r.bar == Some(Bar(values)))
  {
    var labelled := UpdateLabel(shim, width, caption, acquired);
    ReportsAppend(labelled, values);
    assert [] + values == values;
  }

  /** Reports accumulate on the bar in order and never touch the screen. */
  lemma {:induction false} ReportsAppend(shim: Shim, values: seq<real>)
    ensures var r := ReportAll(shim, values);
      && r.screen == shim.screen
      && (shim.bar.None? ==> r == shim)
      && (shim.bar.Some? ==> r.bar == Some(Bar(shim.bar.value.reported + values)))
    decreases |values|
  {
    if |values| > 0 {
      var next := UpdateProgress(shim, values[0]);
      ReportsAppend(next, values[1..]);
      if shim.bar.Some? {
        assert shim.bar.value.reported + [values[0]] + values[1..] == shim.bar.value.reported + values;
      }
    } else {
      if shim.bar.Some? {
        assert shim.bar.value.reported + values == shim.bar.value.reported;
      }
    }
  }

  /** The arguments passed through to the editor: nothing for none, else a
      space and the arguments joined by single spaces, unquoted. */
  function PassThrough(args: seq<string>): (r: string)
    ensures |args| == 0 <==> r == ""
    ensures |args| > 0 ==> r[0] == ' ' && r[1..] == Join(args, ' ')
  {
    if |args| == 0 then "" else " " + Join(args, ' ')
  }

  /** The editor's command line: the launcher's own path, quoted, after
      `--launcher`, then the passed-through arguments. */
  function LaunchArguments(launcherPath: string, args: seq<string>): (r: string)
    ensures StartsWith(r, "--launcher \"" + launcherPath + "\"")
    ensures r[|"--launcher \"" + launcherPath + "\""|..] == PassThrough(args)
  {
    var head := "--launcher \"" + launcherPath + "\"";
    var r := head + PassThrough(args);
    assert r[..|head|] == head;
    assert r[|head|..] == PassThrough(args);
    r
  }

  /** Arguments without spaces survive: splitting what follows the leading
      space at spaces gives them back. */
  lemma PassThroughRoundTrip(args: seq<string>)
    requires |args| > 0 && forall k :: 0 <= k < |args| ==> ' ' !in args[k]
    ensures Split(PassThrough(args)[1..], ' ') == args
  {
    SplitJoin(args, ' ');
  }

  /** Arguments are not quoted, so one argument holding a space and two
      arguments give the same command line. */
  lemma SpacedArgumentSplits(a: string, b: string)
    ensures PassThrough([a + " " + b]) == PassThrough([a, b])
  {
    assert [a, b][1..] == [b];
    assert Join([a, b], ' ') == a + [' '] + b;
    assert Join([a + " " + b], ' ') == a + " " + b;
  }

  /** `Exit`'s permission bits for the editor executable,
      `0x1 | 0x4 | 0x8 | 0x20 | 0x40 | 0x80 | 0x100`. */
  const ExeMode: bv12 := 0x1 | 0x4 | 0x8 | 0x20 | 0x40 | 0x80 | 0x100

  /** The mode is rwxr-xr-x (octal 755): everyone may read and execute,
      only the owner may write. */
  lemma ExeModeIsRwxRxRx()
    ensures ExeMode == 0x1ED
    ensures ExeMode & 0x124 == 0x124 && ExeMode & 0x49 == 0x49 && ExeMode & 0x92 == 0x80
  {
  }
}

=== FILE: patching.dfy ===
/** Application of one patch archive (`Updater.ApplyPatch`): every file
    entry is routed by the first segment of its key, then written
    verbatim or reconstructed from the installed file through a binary-diff
    codec. The routed target is a relative path, which `System.IO`
    resolves against the working directory. */
module Patching {
  import opened Wrappers
  import opened Text
  import opened Paths
  import opened FileSystem

  /** The installed package's root directory, relative to the working directory. */
  const PackageRoot: string := "chromapper"

  /** One entry of a patch archive, as the archive reader yields it. */
  datatype PatchEntry = PatchEntry(key: string, isDirectory: bool, payload: Bytes)

  /** The codecs, as opaque functions; `None` is an exception thrown on a
      corrupt patch or one made for another base file. `xdelta(patch, old)`
      follows the argument order of `xdelta3.ApplyPatch`; `bsdiff(old,
      patch)` that of `BinaryPatchUtility.Apply`, which takes the old file
      as its input stream and the patch through a stream factory. */
  datatype Codecs = Codecs(xdelta: (Bytes, Bytes) -> Option<Bytes>, bsdiff: (Bytes, Bytes) -> Option<Bytes>)

  datatype Codec = Verbatim | Xdelta | Bsdiff

  /** Where an entry goes: its codec, the name shown in the
      "Patching ..." label, and the file it writes. */
  datatype Route = Route(codec: Codec, shown: string, target: string)

  datatype PatchError =
    | NoSeparator(key: string)   // `Substring(0, -1)` on a key without '/'
    | BaseMissing(path: string)  // the codec's base file cannot be opened
    | CodecFailed(path: string)  // the codec rejects the patch
    | WriteFailed(path: string)  // `File.WriteAllBytes` into a missing directory or onto a directory

  /** Classifies an entry key by the segment before its first '/'. */
  function Classify(key: string): (r: Result<Route, PatchError>)
    ensures r.Failure? <==> '/' !in key
    ensures r.Failure? ==> r.error == NoSeparator(key)
  {
    var i := IndexOf(key, '/');
    if i == -1 then Failure(NoSeparator(key))
    else
      var segment := key[..i];
      if segment == "xdelta" || segment == "bsdiff" then
        Success(Route(if segment == "xdelta" then Xdelta else Bsdiff,
                      key[|segment| + 1..],
                      ReplaceAll(key, segment, PackageRoot)))
      else
        Success(Route(Verbatim, key, PackageRoot + "/" + key))
  }

  /** The routing rule stated per leading segment: a key `segment/rest`
      whose segment names a codec shows `rest` and writes the key with
      every occurrence of the codec name replaced by the package root;
      any other key is written under the package root as it stands. */
  lemma ClassifyBySegment(segment: string, rest: string)
    requires '/' !in segment
    ensures var key := segment + "/" + rest;
      Classify(key) ==
        if segment == "xdelta" then Success(Route(Xdelta, rest, ReplaceAll(key, "xdelta", PackageRoot)))
        else if segment == "bsdiff" then Success(Route(Bsdiff, rest, ReplaceAll(key, "bsdiff", PackageRoot)))
        else Success(Route(Verbatim, key, PackageRoot + "/" + key))
  {
    var key := segment + "/" + rest;
    IndexOfAfterHead(segment, '/', rest);
    assert key[..|segment|] == segment;
    assert key[|segment| + 1..] == rest;
  }

  /** Replacing the codec name in `codec/rest` puts the package root in
      front and leaves the separator in place. */
  lemma CodecKeyTarget(codec: string, rest: string)
    requires |codec| > 0 && codec[0] != '/'
    ensures ReplaceAll(codec + "/" + rest, codec, PackageRoot) == PackageRoot + "/" + ReplaceAll(rest, codec, PackageRoot)
  {
    assert codec + "/" + rest == codec + ("/" + rest);
    ReplaceLeading(codec, "/" + rest, PackageRoot);
    assert "/" + rest == ['/'] + rest;
    ReplaceKeepsHead('/', rest, codec, PackageRoot);
  }

  /** Every routed target lies under the package root, and a codec
      entry whose remaining path does not mention the codec name writes
      exactly the path it shows. */
  lemma RouteTargetUnderRoot(key: string)
    requires '/' in key
    ensures var route := Classify(key).value;
      StartsWith(route.target, PackageRoot + "/")
    ensures var route := Classify(key).value;
      route.codec != Verbatim && !Occurs(route.shown, if route.codec == Xdelta then "xdelta" else "bsdiff") ==>
        route.target == PackageRoot + "/" + route.shown
  {
    var i := IndexOf(key, '/');
    var segment, rest := key[..i], key[i + 1..];
    assert key == segment + "/" + rest;
    ClassifyBySegment(segment, rest);
    var route := Classify(key).value;
    var tail: string;
    if segment == "xdelta" || segment == "bsdiff" {
      CodecKeyTarget(segment, rest);
      tail := ReplaceAll(rest, segment, PackageRoot);
      if !Occurs(rest, segment) {
        ReplaceAbsent(rest, segment, PackageRoot);
      }
    } else {
      tail := key;
    }
    assert route.target == PackageRoot + "/" + tail;
    assert (PackageRoot + "/" + tail)[..|PackageRoot + "/"|] == PackageRoot + "/";
  }

  /** `string.Replace` rewrites the codec name everywhere in the key, not
      only in the leading segment: `xdelta/xdelta.dll` is shown as
      `xdelta.dll` but patches `chromapper/chromapper.dll`. */
  lemma CodecNameReplacedEverywhere(tail: string)
    requires !Occurs(tail, "xdelta")
    ensures Classify("xdelta" + "/" + ("xdelta" + tail)) == Success(Route(Xdelta, "xdelta" + tail, PackageRoot + "/" + (PackageRoot + tail)))
  {
    var rest := "xdelta" + tail;
    assert ReplaceAll(rest, "xdelta", PackageRoot) == PackageRoot + tail by {
      ReplaceLeading("xdelta", tail, PackageRoot);
      ReplaceAbsent(tail, "xdelta", PackageRoot);
    }
    CodecKeyTarget("xdelta", rest);
    ClassifyBySegment("xdelta", rest);
  }

  /** An xdelta entry whose remaining path does not mention the codec
      name patches that path under the package root. */
  lemma XdeltaRoute(rest: string)
    requires !Occurs(rest, "xdelta")
    ensures Classify("xdelta" + "/" + rest) == Success(Route(Xdelta, rest, PackageRoot + "/" + rest))
  {
    ClassifyBySegment("xdelta", rest);
    RouteTargetUnderRoot("xdelta" + "/" + rest);
  }

  /** There is no containment check: an entry `../x` is routed to
      `chromapper/../x`, which resolves to `x` directly in the working
      directory, outside the package root. */
  lemma ParentSegmentsPassThrough(segs: seq<string>, x: string)
    requires |segs| >= 1 && Clean(segs) && Segment(x)
    ensures var cwd := "/" + Join(segs, '/');
      var route := Classify("../" + x);
      && route == Success(Route(Verbatim, "../" + x, "chromapper/../" + x))
      && FullPath(cwd, route.value.target) == cwd + "/" + x
  {
    UpKey(x);
    ClassifyBySegment("..", x);
    ParentSegmentResolves(segs, x);
  }

  lemma UpKey(x: string)
    ensures "../" + x == ".." + "/" + x
    ensures PackageRoot + "/" + ("../" + x) == "chromapper/../" + x
    ensures PackageRoot + "/" + ("../" + x) == PackageRoot + ['/'] + ".." + ['/'] + x
  {
  }

  /** The package root followed by a separator, spelled out. */
  lemma PackagePrefix(rest: string)
    ensures PackageRoot + "/" + rest == "chromapper/" + rest
  {
  }

  lemma ParentSegmentResolves(segs: seq<string>, x: string)
    requires |segs| >= 1 && Clean(segs) && Segment(x)
    ensures var cwd := "/" + Join(segs, '/');
      Canon(Combine(cwd, PackageRoot + "/" + ("../" + x))) == cwd + "/" + x
  {
    var more := [PackageRoot, "..", x];
    var target := PackageRoot + "/" + ("../" + x);
    assert target == Join(more, '/') by {
      JoinThree(PackageRoot, "..", x, '/');
      UpKey(x);
    }
    UnderJoined(segs, more);
    UnderJoined(segs, [x]);
    UpAndBackResolves(segs, x);
    CanonOfResolved(segs + more, segs + [x]);
  }

  /** A relative path joined under a clean directory adds its pieces. */
  lemma UnderJoined(segs: seq<string>, more: seq<string>)
    requires |segs| >= 1 && Clean(segs) && |more| >= 1 && |more[0]| > 0 && more[0][0] != '/'
    ensures var cwd := "/" + Join(segs, '/');
      && Combine(cwd, Join(more, '/')) == cwd + "/" + Join(more, '/')
      && cwd + "/" + Join(more, '/') == "/" + Join(segs + more, '/')
  {
    var cwd := "/" + Join(segs, '/');
    JoinedEndsInSegment(segs);
    JoinAppend(segs, more, '/');
    assert Join(more, '/')[0] == more[0][0] by {
      if |more| > 1 {
        JoinCons(more[0], more[1..], '/');
        assert more == [more[0]] + more[1..];
      }
    }
  }

  lemma UpAndBackResolves(segs: seq<string>, x: string)
    requires Clean(segs) && Segment(x)
    ensures Segment(PackageRoot)
    ensures SeparatorFree([""] + (segs + [PackageRoot, "..", x]), '/')
    ensures Resolve([], [""] + (segs + [PackageRoot, "..", x])) == segs + [x]
  {
    var more := [PackageRoot, "..", x];
    var all := segs + more;
    ResolveInAndOut(segs, PackageRoot, x);
    assert SeparatorFree(all, '/') by {
      assert forall k :: 0 <= k < |all| ==> all[k] == (if k < |segs| then segs[k] else more[k - |segs|]);
    }
    ResolveStep([], "", all);
    ResolveFromRoot(segs, more);
  }

  /** One loop iteration of `ApplyPatch`: directory entries are skipped;
      a file entry is routed, its base file (for a codec) is read from the
      target's full path in the working directory `cwd`, and the result is
      written there with a single `File.WriteAllBytes`. */
  function ApplyEntry(codecs: Codecs, cwd: string, e: PatchEntry, disk: Disk): (r: Result<Disk, PatchError>)
    ensures r.Success? ==> r.value.dirs == disk.dirs
    ensures r.Success? ==> forall p :: p in disk.files ==> p in r.value.files
    ensures r.Success? && !e.isDirectory ==>
      && Classify(e.key).Success?
      && var path := FullPath(cwd, Classify(e.key).value.target);
      && path in r.value.files
      && (forall p :: p != path ==> (p in r.value.files <==> p in disk.files))
      && (forall p :: p != path && p in disk.files ==> r.value.files[p] == disk.files[p])
    ensures e.isDirectory ==> r == Success(disk)
    ensures WellFormed(disk) && r.Success? ==> WellFormed(r.value)
  {
    if e.isDirectory then Success(disk)
    else
      var route :- Classify(e.key);
      var path := FullPath(cwd, route.target);
      var content :-
        match route.codec
        case Verbatim => Success(e.payload)
        case Xdelta =>
          if path !in disk.files then Failure(BaseMissing(path))
          else Decoded(codecs.xdelta(e.payload, disk.files[path]), path)
        case Bsdiff =>
          if path !in disk.files then Failure(BaseMissing(path))
          else Decoded(codecs.bsdiff(disk.files[path], e.payload), path);
      match WriteAllBytes(disk, path, content)
      case None => Failure(WriteFailed(path))
      case Some(written) => Success(written)
  }

  /** A codec's output, or the exception it throws. */
  function Decoded(out: Option<Bytes>, path: string): Result<Bytes, PatchError> {
    match out
    case None => Failure(CodecFailed(path))
    case Some(bytes) => Success(bytes)
  }

  /** The new contents of an entry's target: the payload for a verbatim
      entry, the codec's output from the base file and the payload
      otherwise. A codec entry needs its base file and the codec's
      acceptance; every entry needs a writable target. */
  lemma ApplyEntryContent(codecs: Codecs, cwd: string, e: PatchEntry, disk: Disk)
    requires !e.isDirectory && '/' in e.key
    ensures var route := Classify(e.key).value;
      var path := FullPath(cwd, route.target);
      var writable := ParentPresent(disk, path) && path !in disk.dirs;
      var r := ApplyEntry(codecs, cwd, e, disk);
      match route.codec
      case Verbatim =>
        (r.Success? <==> writable)
        && (r.Success? ==> r.value.files[path] == e.payload)
      case Xdelta =>
        (r.Success? <==> path in disk.files && codecs.xdelta(e.payload, disk.files[path]).Some? && writable)
        && (r.Success? ==> r.value.files[path] == codecs.xdelta(e.payload, disk.files[path]).value)
      case Bsdiff =>
        (r.Success? <==> path in disk.files && codecs.bsdiff(disk.files[path], e.payload).Some? && writable)
        && (r.Success? ==> r.value.files[path] == codecs.bsdiff(disk.files[path], e.payload).value)
  {
  }

  /** On a disk that is a tree, a codec entry fails exactly when its base
      file is missing or the codec rejects the patch: the write itself
      cannot fail over an existing file. */
  lemma CodecEntryFailure(codecs: Codecs, cwd: string, e: PatchEntry, disk: Disk)
    requires WellFormed(disk)
    requires !e.isDirectory && '/' in e.key && Classify(e.key).value.codec != Verbatim
    ensures var route := Classify(e.key).value;
      var path := FullPath(cwd, route.target);
      var r := ApplyEntry(codecs, cwd, e, disk);
      && (path !in disk.files ==> r == Failure(BaseMissing(path)))
      && (path in disk.files ==>
          var out := if route.codec == Xdelta then codecs.xdelta(e.payload, disk.files[path])
                     else codecs.bsdiff(disk.files[path], e.payload);
          (r.Failure? <==> out.None?) && (r.Failure? ==> r.error == CodecFailed(path)))
  {
  }

  /** The disk after applying a patch archive, and the exception that
      ended it early, if any. Entries already written stay written. */
  datatype Applied = Applied(disk: Disk, failure: Option<PatchError>)

  /** `ApplyPatch`: applies the entries in archive order, in the working
      directory `cwd`, and stops at the first failing one. Which files it
      writes is stated by `ApplyPatchWritesOnlyTargets`. */
  function ApplyPatch(codecs: Codecs, cwd: string, entries: seq<PatchEntry>, disk: Disk): (r: Applied)
    ensures r.disk.dirs == disk.dirs
    ensures forall p :: p in disk.files ==> p in r.disk.files
    ensures WellFormed(disk) ==> WellFormed(r.disk)
    decreases |entries|
  {
    if |entries| == 0 then Applied(disk, None)
    else
      match ApplyEntry(codecs, cwd, entries[0], disk)
      case Failure(err) => Applied(disk, Some(err))
      case Success(next) => ApplyPatch(codecs, cwd, entries[1..], next)
  }

  /** Whether file entry `e` writes the full path `p`: its routed target
      resolved against the working directory. */
  predicate LandsAt(cwd: string, e: PatchEntry, p: string) {
    !e.isDirectory && Classify(e.key).Success? && FullPath(cwd, Classify(e.key).value.target) == p
  }

  /** Every file a patch creates or changes is the resolved target of one
      of its file entries; nothing else on the disk is touched. */
  lemma {:induction false} ApplyPatchWritesOnlyTargets(codecs: Codecs, cwd: string, entries: seq<PatchEntry>, disk: Disk)
    ensures var after := ApplyPatch(codecs, cwd, entries, disk).disk;
      forall p :: p in after.files && (p !in disk.files || after.files[p] != disk.files[p]) ==>
        exists k :: 0 <= k < |entries| && LandsAt(cwd, entries[k], p)
    decreases |entries|
  {
    if |entries| > 0 && ApplyEntry(codecs, cwd, entries[0], disk).Success? {
      var next := ApplyEntry(codecs, cwd, entries[0], disk).value;
      var after := ApplyPatch(codecs, cwd, entries[1..], next).disk;
      ApplyPatchWritesOnlyTargets(codecs, cwd, entries[1..], next);
      forall p | p in after.files && (p !in disk.files || after.files[p] != disk.files[p])
        ensures exists k :: 0 <= k < |entries| && LandsAt(cwd, entries[k], p)
      {
        if p in next.files && (p !in disk.files || next.files[p] != disk.files[p]) {
          assert LandsAt(cwd, entries[0], p);
        } else {
          var k :| 0 <= k < |entries[1..]| && LandsAt(cwd, entries[1..][k], p);
          assert LandsAt(cwd, entries[k + 1], p);
        }
      }
    }
  }

  /** Applying `first + rest` is applying `first` and, unless that failed,
      then `rest` to its result: processing is strictly sequential and
      stops at the first failure without undoing earlier writes. */
  lemma {:induction false} ApplyPatchSplits(codecs: Codecs, cwd: string, first: seq<PatchEntry>, rest: seq<PatchEntry>, disk: Disk)
    ensures ApplyPatch(codecs, cwd, first + rest, disk) ==
      var a := ApplyPatch(codecs, cwd, first, disk);
      if a.failure.Some? then a else ApplyPatch(codecs, cwd, rest, a.disk)
    decreases |first|
  {
    if |first| == 0 {
      assert first + rest == rest;
    } else {
      assert (first + rest)[0] == first[0];
      assert (first + rest)[1..] == first[1..] + rest;
      match ApplyEntry(codecs, cwd, first[0], disk)
      case Failure(_) =>
      case Success(next) =>
        ApplyPatchSplits(codecs, cwd, first[1..], rest, next);
    }
  }

  /** The entry that fails leaves the disk as the entries before it left it. */
  lemma FailingEntryWritesNothing(codecs: Codecs, cwd: string, entries: seq<PatchEntry>, k: nat, disk: Disk)
    requires k < |entries|
    requires ApplyPatch(codecs, cwd, entries[..k], disk).failure.None?
    requires ApplyEntry(codecs, cwd, entries[k], ApplyPatch(codecs, cwd, entries[..k], disk).disk).Failure?
    ensures var before := ApplyPatch(codecs, cwd, entries[..k], disk).disk;
      ApplyPatch(codecs, cwd, entries, disk) == Applied(before, Some(ApplyEntry(codecs, cwd, entries[k], before).error))
  {
    var before := ApplyPatch(codecs, cwd, entries[..k], disk).disk;
    var rest := entries[k..];
    TakeDrop(entries, k);
    ApplyPatchSplits(codecs, cwd, entries[..k], rest, disk);
    HeadFails(codecs, cwd, rest, before);
  }

  lemma TakeDrop(entries: seq<PatchEntry>, k: nat)
    requires k < |entries|
    ensures entries[..k] + entries[k..] == entries && entries[k..][0] == entries[k]
  {
  }

  /** A failing first entry ends the patch with the disk untouched. */
  lemma HeadFails(codecs: Codecs, cwd: string, entries: seq<PatchEntry>, disk: Disk)
    requires |entries| > 0 && ApplyEntry(codecs, cwd, entries[0], disk).Failure?
    ensures ApplyPatch(codecs, cwd, entries, disk) == Applied(disk, Some(ApplyEntry(codecs, cwd, entries[0], disk).error))
  {
  }
}

=== FILE: paths.dfy ===
/** The `System.IO.Path` operations the updater relies on, for
    '/'-separated paths: `Path.Combine`, `Path.GetFullPath` (as a segment
    normaliser, and as the resolution of a relative path against the
    working directory) and `Path.GetDirectoryName`. */
module Paths {
  import opened Text

  /** `Path.Combine(a, b)`: a rooted `b` replaces `a` altogether. */
  function Combine(a: string, b: string): string {
    if |b| == 0 then a
    else if b[0] == '/' then b
    else if |a| == 0 then b
    else if a[|a| - 1] == '/' then a + b
    else a + "/" + b
  }

  /** Combining ends with the second path, starts with the first when the
      second is relative, and keeps a rooted first path rooted. */
  lemma CombineKeepsBoth(a: string, b: string)
    ensures var r := Combine(a, b);
      && |b| <= |r| && r[|r| - |b|..] == b
      && (|b| > 0 && b[0] != '/' ==> StartsWith(r, a) && |r| > |a|)
      && (|a| > 0 && a[0] == '/' ==> |r| > 0 && r[0] == '/')
  {
    var r := Combine(a, b);
    if |b| > 0 && b[0] != '/' && |a| > 0 {
      assert r[..|a|] == a;
    }
  }

  /** A segment that survives normalisation: non-empty, not "." or "..",
      and free of separators. */
  predicate Segment(s: string) {
    s != "" && s != "." && s != ".." && '/' !in s
  }

  predicate Clean(segs: seq<string>) {
    forall k :: 0 <= k < |segs| ==> Segment(segs[k])
  }

  /** Walks the segments of a path onto a stack of directories: empty and
      "." segments are dropped, ".." pops (and stops at the root). */
  function Resolve(stack: seq<string>, segs: seq<string>): (r: seq<string>)
    requires Clean(stack) && SeparatorFree(segs, '/')
    ensures Clean(r)
    decreases |segs|
  {
    if |segs| == 0 then stack
    else if segs[0] == "" || segs[0] == "." then Resolve(stack, segs[1..])
    else if segs[0] == ".." then Resolve(if |stack| > 0 then stack[..|stack| - 1] else stack, segs[1..])
    else Resolve(stack + [segs[0]], segs[1..])
  }

  /** `Path.GetFullPath(p)`: the normalised absolute path, keeping a
      trailing separator. */
  function Canon(p: string): (r: string)
    ensures |r| >= 1 && r[0] == '/'
  {
    var segs := Resolve([], Split(p, '/'));
    if |segs| == 0 then "/"
    else "/" + Join(segs, '/') + (if |p| > 0 && p[|p| - 1] == '/' then "/" else "")
  }

  /** The normal form ends with a separator exactly when it is the root or
      the path did. */
  lemma CanonTrailing(p: string)
    ensures var r := Canon(p);
      r[|r| - 1] == '/' <==> r == "/" || (|p| > 0 && p[|p| - 1] == '/')
  {
    var segs := Resolve([], Split(p, '/'));
    if |segs| > 0 {
      JoinedEndsInSegment(segs);
    }
  }

  /** `Path.GetDirectoryName(p)` for an absolute path: everything before
      the last separator. */
  function DirName(p: string): (r: string)
    ensures |r| <= |p| || r == "/"
  {
    var i := LastIndexOf(p, '/');
    if i <= 0 then "/" else p[..i]
  }

  /** Clean segments are pushed unchanged, so resolution can be split. */
  lemma {:induction false} ResolveAppend(stack: seq<string>, segs: seq<string>, rest: seq<string>)
    requires Clean(stack) && Clean(segs) && SeparatorFree(rest, '/')
    ensures Resolve(stack, segs + rest) == Resolve(stack + segs, rest)
    decreases |segs|
  {
    if |segs| > 0 {
      var all := segs + rest;
      assert all[0] == segs[0];
      assert all[1..] == segs[1..] + rest;
      ResolveAppend(stack + [segs[0]], segs[1..], rest);
      assert stack + [segs[0]] + segs[1..] == stack + segs;
    } else {
      assert segs + rest == rest;
      assert stack + segs == stack;
    }
  }

  /** The root is its own normal form. */
  lemma CanonRoot()
    ensures Canon("/") == "/"
  {
    assert "/" == "" + ['/'] + "";
    SplitHead("", '/', "");
    assert Split("/", '/') == ["", ""];
    assert ["", ""][1..] == [""];
    assert Resolve([], ["", ""]) == Resolve([], [""]) == Resolve([], []);
  }

  /** Splitting and resolving a joined clean path gives back its segments. */
  lemma ResolveJoined(segs: seq<string>)
    requires |segs| >= 1 && Clean(segs)
    ensures Resolve([], Split("/" + Join(segs, '/'), '/')) == segs
  {
    var body := Join(segs, '/');
    var c := "/" + body;
    assert SeparatorFree(segs, '/');
    SplitRooted(body, '/');
    SplitJoin(segs, '/');
    assert Split(c, '/') == [""] + segs;
    assert ([""] + segs)[1..] == segs;
    ResolveAppend([], segs, []);
    assert segs + [] == segs;
    assert [] + segs == segs;
  }

  /** A joined clean path does not end with a separator. */
  lemma JoinedEndsInSegment(segs: seq<string>)
    requires |segs| >= 1 && Clean(segs)
    ensures var c := "/" + Join(segs, '/'); c[|c| - 1] != '/'
  {
    var body := Join(segs, '/');
    var c := "/" + body;
    JoinLast(segs, '/');
    var last := segs[|segs| - 1];
    assert last[|last| - 1] in last;
    assert c[|c| - 1] == body[|body| - 1] == last[|last| - 1];
  }

  /** A joined clean path without a trailing separator is its own normal form. */
  lemma CanonOfCleanBare(segs: seq<string>)
    requires |segs| >= 1 && Clean(segs)
    ensures Canon("/" + Join(segs, '/')) == "/" + Join(segs, '/')
  {
    var c := "/" + Join(segs, '/');
    ResolveJoined(segs);
    JoinedEndsInSegment(segs);
    CanonWithoutTrailing(c, segs);
  }

  /** The normal form of a path without a trailing separator whose pieces
      resolve to `segs`. */
  lemma CanonWithoutTrailing(p: string, segs: seq<string>)
    requires |p| > 0 && p[|p| - 1] != '/' && |segs| > 0
    requires Resolve([], Split(p, '/')) == segs
    ensures Canon(p) == "/" + Join(segs, '/')
  {
    var r := "/" + Join(segs, '/');
    assert r + "" == r;
  }

  /** A joined clean path with a trailing separator is its own normal form. */
  lemma CanonOfCleanTrailing(segs: seq<string>)
    requires |segs| >= 1 && Clean(segs)
    ensures Canon("/" + Join(segs, '/') + "/") == "/" + Join(segs, '/') + "/"
  {
    SplitTrailing(segs);
    ResolveTrailing(segs);
    var c := "/" + Join(segs, '/') + "/";
    assert c[|c| - 1] == '/';
  }

  /** The pieces of a joined clean path with a trailing separator. */
  lemma SplitTrailing(segs: seq<string>)
    requires |segs| >= 1 && Clean(segs)
    ensures SeparatorFree([""] + (segs + [""]), '/')
    ensures Split("/" + Join(segs, '/') + "/", '/') == [""] + (segs + [""])
  {
    var body := Join(segs, '/');
    assert SeparatorFree(segs, '/');
    var after := body + ['/'] + "";
    assert "/" + body + "/" == ['/'] + after;
    SplitRooted(after, '/');
    SplitJoinThen(segs, '/', "");
  }

  /** Resolving those pieces gives back the segments. */
  lemma ResolveTrailing(segs: seq<string>)
    requires |segs| >= 1 && Clean(segs)
    ensures SeparatorFree([""] + (segs + [""]), '/')
    ensures Resolve([], [""] + (segs + [""])) == segs
  {
    var pieces := [""] + (segs + [""]);
    assert SeparatorFree(pieces, '/') by {
      assert forall k :: 0 <= k < |pieces| ==> pieces[k] == "" || pieces[k] == segs[k - 1];
    }
    assert Resolve([], pieces) == Resolve([], segs + [""]) by {
      assert pieces[1..] == segs + [""];
    }
    ResolveAppend([], segs, [""]);
    assert [] + segs == segs;
    assert Resolve(segs, [""]) == segs by {
      assert [""][1..] == [];
    }
  }

  /** Normalising an already normalised path changes nothing. */
  lemma CanonIdempotent(p: string)
    ensures Canon(Canon(p)) == Canon(p)
  {
    var segs := Resolve([], Split(p, '/'));
    if |segs| == 0 {
      CanonRoot();
    } else if |p| > 0 && p[|p| - 1] == '/' {
      CanonOfCleanTrailing(segs);
    } else {
      CanonOfCleanBare(segs);
      assert Canon(p) == "/" + Join(segs, '/');
    }
  }

  /** A trailing separator on the base changes nothing for a relative path. */
  lemma CombineUnderSeparator(a: string, b: string)
    requires |a| > 0 && a[|a| - 1] != '/' && |b| > 0 && b[0] != '/'
    ensures Combine(a + "/", b) == Combine(a, b)
  {
    assert (a + "/")[|a|] == '/';
  }

  /** `Path.GetFullPath(p)` in a process whose working directory is `cwd`:
      a relative `p` is resolved against `cwd`. */
  function FullPath(cwd: string, p: string): (r: string)
    ensures |r| >= 1 && r[0] == '/'
    ensures |p| > 0 && p[0] == '/' ==> r == Canon(p)
  {
    Canon(Combine(cwd, p))
  }

  /** `Path.GetFullPath` as a function value, for the working directory `cwd`. */
  function FullPathIn(cwd: string): string -> string {
    p => FullPath(cwd, p)
  }

  /** A rooted path resolves the same in every working directory. */
  lemma FullPathOfRooted(cwd: string, p: string)
    requires |p| > 0 && p[0] == '/'
    ensures FullPathIn(cwd)(p) == FullPath(cwd, p) == Canon(p)
  {
  }

  /** A rooted path of separator-free pieces ending in a segment is
      normalised to what resolving its pieces leaves, when that is not
      empty. */
  lemma CanonOfResolved(segs: seq<string>, out: seq<string>)
    requires |segs| >= 1 && Segment(segs[|segs| - 1])
    requires SeparatorFree([""] + segs, '/') && Resolve([], [""] + segs) == out && |out| >= 1
    ensures Canon("/" + Join(segs, '/')) == "/" + Join(out, '/')
  {
    var body := Join(segs, '/');
    var p := "/" + body;
    assert Split(p, '/') == [""] + segs by {
      assert SeparatorFree(segs, '/') by {
        assert forall k :: 0 <= k < |segs| ==> segs[k] == ([""] + segs)[k + 1];
      }
      SplitRooted(body, '/');
      SplitJoin(segs, '/');
    }
    assert p[|p| - 1] != '/' by {
      var last := segs[|segs| - 1];
      JoinLast(segs, '/');
      assert last[|last| - 1] in last;
    }
    CanonWithoutTrailing(p, out);
  }

  lemma ResolveTwoUp(a: string, b: string, c: string, d: string)
    requires Segment(a) && Segment(b) && Segment(c) && Segment(d)
    ensures SeparatorFree([""] + [a, b, "..", "..", c, d], '/')
    ensures Resolve([], [""] + [a, b, "..", "..", c, d]) == [c, d]
  {
    var rest := [c, d];
    ResolveFromRoot(rest, []);
    assert rest + [] == rest;
    ResolveOutTwice(a, b, rest);
    assert [a, b, "..", "..", c, d] == [a, b, "..", ".."] + rest;
    ResolveStep([], "", [a, b, "..", "..", c, d]);
  }

  /** Two folders in and two levels out again, from the root. */
  lemma ResolveOutTwice(a: string, b: string, rest: seq<string>)
    requires Segment(a) && Segment(b) && SeparatorFree(rest, '/')
    ensures SeparatorFree([a, b, "..", ".."] + rest, '/')
    ensures Resolve([], [a, b, "..", ".."] + rest) == Resolve([], rest)
  {
    var l3 := [".."] + rest;
    var l1 := [b, ".."] + l3;
    assert [a, b, "..", ".."] + rest == [a] + l1;
    ResolveStep([], a, l1);
    assert [] + [a] == [a];
    ResolveInAndOutThen([a], b, l3);
    ResolveStep([a], "..", rest);
    assert [a][..0] == [];
  }

  /** Going into a folder and straight back out leaves the stack as it was. */
  lemma ResolveInAndOutThen(stack: seq<string>, b: string, rest: seq<string>)
    requires Clean(stack) && Segment(b) && SeparatorFree(rest, '/')
    ensures SeparatorFree([b, ".."] + rest, '/')
    ensures Resolve(stack, [b, ".."] + rest) == Resolve(stack, rest)
  {
    var l := [".."] + rest;
    assert [b, ".."] + rest == [b] + l;
    ResolveStep(stack, b, l);
    ResolveStep(stack + [b], "..", rest);
    assert (stack + [b])[..|stack + [b]| - 1] == stack;
  }

  lemma ResolveSteps(a: string, b: string, c: string, d: string)
    requires Segment(a) && Segment(b) && Segment(c) && Segment(d)
    ensures SeparatorFree([""] + [a, b, "..", c, d], '/')
    ensures Resolve([], [""] + [a, b, "..", c, d]) == [a, c, d]
  {
    var l4 := [d];
    var l3 := [c] + l4;
    var l2 := [".."] + l3;
    var l1 := [b] + l2;
    var l0 := [a] + l1;
    assert l0 == [a, b, "..", c, d];
    var ab := [a] + [b];
    var ac := [a] + [c];
    var r5 := Resolve(ac + [d], []);
    assert SeparatorFree(l4, '/') && r5 == [a, c, d] by {
      assert ac + [d] == [a, c, d];
    }
    assert SeparatorFree(l3, '/') && Resolve([a], l3) == r5 by {
      ResolveStep([a], c, l4);
      ResolveStep(ac, d, []);
      assert [d] + [] == l4;
    }
    assert SeparatorFree(l2, '/') && Resolve(ab, l2) == r5 by {
      ResolveStep(ab, "..", l3);
      assert ab[..1] == [a];
    }
    assert SeparatorFree(l0, '/') && Resolve([], l0) == r5 by {
      ResolveStep([a], b, l2);
      ResolveStep([], a, l1);
      assert [] + [a] == [a];
    }
    ResolveStep([], "", l0);
  }

  /** Resolving from the root pushes clean segments unchanged. */
  lemma ResolveFromRoot(segs: seq<string>, rest: seq<string>)
    requires Clean(segs) && SeparatorFree(rest, '/')
    ensures Resolve([], segs + rest) == Resolve(segs, rest)
  {
    ResolveAppend([], segs, rest);
    assert [] + segs == segs;
  }

  /** Going into a folder and back out again leaves the stack as it was. */
  lemma ResolveInAndOut(stack: seq<string>, a: string, x: string)
    requires Clean(stack) && Segment(a) && Segment(x)
    ensures SeparatorFree([a, "..", x], '/')
    ensures Resolve(stack, [a, "..", x]) == stack + [x]
  {
    assert [a, "..", x] == [a, ".."] + [x];
    ResolveInAndOutThen(stack, a, [x]);
    ResolveStep(stack, x, []);
    assert [x] + [] == [x];
  }

  /** One step of `Resolve`. */
  lemma ResolveStep(stack: seq<string>, x: string, rest: seq<string>)
    requires Clean(stack) && '/' !in x && SeparatorFree(rest, '/')
    ensures SeparatorFree([x] + rest, '/')
    ensures Resolve(stack, [x] + rest) ==
      if x == "" || x == "." then Resolve(stack, rest)
      else if x == ".." then Resolve(if |stack| > 0 then stack[..|stack| - 1] else stack, rest)
      else Resolve(stack + [x], rest)
  {
    var s := [x] + rest;
    assert s[0] == x && s[1..] == rest;
    assert forall k :: 1 <= k < |s| ==> s[k] == rest[k - 1];
  }
}

=== FILE: planner.dfy ===
/** The patch-path planner (`Updater.FindPath`): a backward-chaining search
    from the desired version towards the installed one over the remote
    patch listing. */
module Planner {
  import opened Wrappers

  /** The remote listing: for a destination version, the source versions
      `s` for which an object `<destination>/<s>.patch` is listed, in
      listing order (duplicates possible). */
  type Listing = int -> seq<int>

  /** Every source listed for a destination in `(lo, hi]` lies below that
      destination. Nothing in the launcher enforces this; without it the
      search can cycle (a listing with 12 under 10 and 10 under 12). */
  ghost predicate ForwardBetween(sources: Listing, lo: int, hi: int) {
    forall d, i :: lo < d <= hi && 0 <= i < |sources(d)| ==> sources(d)[i] < d
  }

  /** `xs.Where(a => a > floor).Min()`, with `None` where `Min` throws on an
      empty sequence. */
  function LeastAbove(xs: seq<int>, floor: int): (r: Option<int>)
    ensures r.None? <==> forall k :: 0 <= k < |xs| ==> xs[k] <= floor
    ensures r.Some? ==> r.value in xs && r.value > floor
    ensures r.Some? ==> forall k :: 0 <= k < |xs| && xs[k] > floor ==> r.value <= xs[k]
  {
    if |xs| == 0 then None
    else
      var rest := LeastAbove(xs[1..], floor);
      assert forall k :: 1 <= k < |xs| ==> xs[k] == xs[1..][k - 1];
      if xs[0] <= floor then rest
      else if rest.Some? && rest.value < xs[0] then rest
      else Some(xs[0])
  }

  /** A patch plan from `current` to `desired`: destinations that rise
      strictly from above `current` to `desired`, where each destination
      lists the version before it (the first one lists `current`), so
      every hop is a patch that exists on the server. */
  ghost predicate ValidPlan(sources: Listing, current: int, desired: int, plan: seq<int>) {
    && |plan| >= 1
    && plan[|plan| - 1] == desired
    && current < plan[0]
    && current in sources(plan[0])
    && (forall k :: 0 <= k < |plan| - 1 ==> plan[k] < plan[k + 1] && plan[k] in sources(plan[k + 1]))
  }

  /** `FindPath(current, desired)`: `[desired]` when `current` is listed
      for `desired`; otherwise the plan to the least listed source above
      `current`, extended by `desired`; `None` (`FindPath` returns `null`) when
      there is no such source or the sub-search fails. */
  function FindPath(sources: Listing, current: int, desired: int): (r: Option<seq<int>>)
    requires current < desired
    requires ForwardBetween(sources, current, desired)
    ensures r.Some? ==> ValidPlan(sources, current, desired, r.value)
    ensures r.Some? ==> |r.value| <= desired - current
    ensures r.Some? ==> forall k :: 0 <= k < |r.value| ==> current < r.value[k] <= desired
    decreases desired - current
  {
    var listed := sources(desired);
    if current in listed then Some([desired])
    else
      match LeastAbove(listed, current)
      case None => None
      case Some(waypoint) =>
        match FindPath(sources, current, waypoint)
        case None => None
        case Some(path) => Some(path + [desired])
  }

  /** A direct patch wins even when longer routes exist. */
  lemma DirectPatchPreferred(sources: Listing, current: int, desired: int)
    requires current < desired && ForwardBetween(sources, current, desired)
    requires current in sources(desired)
    ensures FindPath(sources, current, desired) == Some([desired])
  {
  }

  /** Without a direct patch, the search goes through the least listed
      source above `current` and through no other waypoint: it fails
      exactly when the search to that waypoint fails. */
  lemma ThroughLeastWaypoint(sources: Listing, current: int, desired: int, waypoint: int)
    requires current < desired && ForwardBetween(sources, current, desired)
    requires current !in sources(desired)
    requires waypoint in sources(desired) && waypoint > current
    requires forall x :: x in sources(desired) && x > current ==> waypoint <= x
    ensures waypoint < desired
    ensures FindPath(sources, current, desired) ==
      match FindPath(sources, current, waypoint)
      case None => None
      case Some(path) => Some(path + [desired])
  {
    var listed := sources(desired);
    var k :| 0 <= k < |listed| && listed[k] == waypoint;
    assert LeastAbove(listed, current) == Some(waypoint) by {
      var r := LeastAbove(listed, current);
      assert r.Some? by {
        assert listed[k] > current;
      }
      assert r.value <= waypoint by {
        assert listed[k] > current;
      }
    }
  }

  /** Without any listed source above `current` (and no direct patch),
      there is no plan. */
  lemma NoWaypointNoPlan(sources: Listing, current: int, desired: int)
    requires current < desired && ForwardBetween(sources, current, desired)
    requires forall x :: x in sources(desired) ==> x < current
    ensures FindPath(sources, current, desired) == None
  {
    var listed := sources(desired);
    assert LeastAbove(listed, current) == None by {
      assert forall k :: 0 <= k < |listed| ==> listed[k] in listed;
    }
  }

  /** The two-hop example: 13 lists {9, 12} and 12 lists {8, 10}, so from
      10 the plan is 12 then 13. */
  lemma ExampleTwoHops()
    ensures var sources := (d: int) => if d == 13 then [9, 12] else if d == 12 then [8, 10] else [];
      ForwardBetween(sources, 10, 13) && FindPath(sources, 10, 13) == Some([12, 13])
  {
    var sources := (d: int) => if d == 13 then [9, 12] else if d == 12 then [8, 10] else [];
    assert LeastAbove([9, 12], 10) == Some(12) by {
      assert [9, 12][1..] == [12];
      assert [12][1..] == [];
    }
    assert FindPath(sources, 10, 12) == Some([12]);
    assert [12] + [13] == [12, 13];
  }

  /** The dead-end example: 20 lists only {3}, so from 5 there is no plan. */
  lemma ExampleNoRoute()
    ensures var sources := (d: int) => if d == 20 then [3] else [];
      ForwardBetween(sources, 5, 20) && FindPath(sources, 5, 20) == None
  {
    var sources := (d: int) => if d == 20 then [3] else [];
    NoWaypointNoPlan(sources, 5, 20);
  }

  /** The search is not complete: 13 lists {11, 12}, 12 lists {10} and 11
      lists nothing. The plan [12, 13] exists, but the search commits to
      the least waypoint 11, finds nothing there and gives up. */
  lemma ExampleLeastWaypointDeadEnds()
    ensures var sources := (d: int) => if d == 13 then [11, 12] else if d == 12 then [10] else [];
      && ForwardBetween(sources, 10, 13)
      && ValidPlan(sources, 10, 13, [12, 13])
      && FindPath(sources, 10, 13) == None
  {
    var sources := (d: int) => if d == 13 then [11, 12] else if d == 12 then [10] else [];
    assert LeastAbove([11, 12], 10) == Some(11) by {
      assert [11, 12][1..] == [12];
      assert [12][1..] == [];
    }
    assert FindPath(sources, 10, 11) == None;
  }
}

=== FILE: selfreplace.dfy ===
/** The Linux launcher replacing its own executable (`LinuxSpecific.Restart`)
    and removing the previous copy on the next start
    (`LinuxSpecific.CleanupUpdate`), over the files of the launcher folder. */
module SelfReplace {
  import opened Wrappers
  import opened Paths
  import opened FileSystem

  /** The name the previous executable is parked under. */
  const ParkedName: string := "CML-Linux.old"

  /** `GetCMLPath()`: the running executable, by its own file name, in the
      launcher folder. */
  function LauncherPath(folder: string, self: string): string {
    Combine(folder, self)
  }

  /** `GetTempCMLPath()`. */
  function ParkedPath(folder: string): string {
    Combine(folder, ParkedName)
  }

  /** `Path.Combine(folder, name)` for a relative, non-empty name is the
      folder's own prefix followed by the name. */
  lemma CombineRelative(folder: string, name: string)
    requires |name| > 0 && name[0] != '/'
    ensures Combine(folder, name) ==
      (if |folder| == 0 then "" else if folder[|folder| - 1] == '/' then folder else folder + "/") + name
  {
  }

  /** The running executable and its parked copy are different files as
      long as the executable is not itself called `CML-Linux.old`. */
  lemma LauncherAndParkedDiffer(folder: string, self: string)
    requires |self| > 0 && self[0] != '/' && self != ParkedName
    ensures LauncherPath(folder, self) != ParkedPath(folder)
  {
    CombineRelative(folder, self);
    CombineRelative(folder, ParkedName);
    var base := if |folder| == 0 then "" else if folder[|folder| - 1] == '/' then folder else folder + "/";
    PrefixCancels(base, self, ParkedName);
  }

  lemma PrefixCancels(base: string, a: string, b: string)
    ensures base + a == base + b ==> a == b
  {
    if base + a == base + b {
      assert a == (base + a)[|base|..];
      assert b == (base + b)[|base|..];
    }
  }

  datatype MoveError = SourceMissing(path: string) | DestinationExists(path: string)

  /** `File.Move(src, dst)` without overwrite: throws when `src` does not
      exist or `dst` already does. */
  function Move(fs: Files, src: string, dst: string): (r: Result<Files, MoveError>)
    ensures r.Success? <==> src in fs && dst !in fs
    ensures src !in fs ==> r == Failure(SourceMissing(src))
    ensures src in fs && dst in fs ==> r == Failure(DestinationExists(dst))
    ensures r.Success? ==> dst in r.value && r.value[dst] == fs[src] && src !in r.value
    ensures r.Success? ==> forall p :: p != src && p != dst ==> (p in r.value <==> p in fs)
    ensures r.Success? ==> forall p :: p != src && p != dst && p in fs ==> r.value[p] == fs[p]
  {
    if src !in fs then Failure(SourceMissing(src))
    else if dst in fs then Failure(DestinationExists(dst))
    else Success(fs[dst := fs[src]] - {src})
  }

  /** The states after each move that succeeded, and the exception that
      stopped the sequence, if any. */
  datatype Replaced = Replaced(trace: seq<Files>, failure: Option<MoveError>)

  /** The last state of a replacement, or `fs` when no move succeeded. */
  function Final(fs: Files, r: Replaced): Files {
    if |r.trace| == 0 then fs else r.trace[|r.trace| - 1]
  }

  /** Whether the executable contents `exe` can still be found, at the
      launcher path or at the parked path. */
  predicate Recoverable(st: Files, self: string, parked: string, exe: Bytes) {
    (self in st && st[self] == exe) || (parked in st && st[parked] == exe)
  }

  /** `Restart(tmp)`: park the running executable, then move the downloaded
      one into its place. The second move only runs when the first
      succeeded; a failure throws out of `Restart` with the files as the
      last successful move left them. (A download path equal to the parked
      path moves the old executable straight back.) */
  function Restart(fs: Files, self: string, parked: string, tmp: string): (r: Replaced)
    ensures |r.trace| <= 2
    ensures r.failure.None? <==> |r.trace| == 2
    ensures r.failure.None? <==> self in fs && parked !in fs && ((tmp in fs && tmp != self) || tmp == parked)
    ensures r.failure.None? && tmp != parked ==> var last := Final(fs, r);
      && self in last && last[self] == fs[tmp]
      && parked in last && last[parked] == fs[self]
      && tmp !in last
      && (forall p :: p != self && p != parked && p != tmp ==> (p in last <==> p in fs))
      && (forall p :: p != self && p != parked && p != tmp && p in fs ==> last[p] == fs[p])
    ensures self in fs ==> forall k :: 0 <= k < |r.trace| ==> Recoverable(r.trace[k], self, parked, fs[self])
  {
    match Move(fs, self, parked)
    case Failure(e) => Replaced([], Some(e))
    case Success(mid) =>
      match Move(mid, tmp, self)
      case Failure(e) =>
        assert tmp in fs && tmp != self ==> tmp in mid by {
          assert tmp != parked && tmp != self ==> (tmp in mid <==> tmp in fs);
        }
        Replaced([mid], Some(e))
      case Success(last) => Replaced([mid, last], None)
  }

  /** A parked copy left behind by an earlier update blocks the first
      move: `Restart` throws and nothing is moved. */
  lemma StaleParkedCopyBlocksRestart(fs: Files, self: string, parked: string, tmp: string)
    requires self in fs && parked in fs
    ensures Restart(fs, self, parked, tmp) == Replaced([], Some(DestinationExists(parked)))
  {
  }

  /** A missing download fails the second move, after the running
      executable has already been parked: the launcher path is then empty
      and only the parked copy remains. */
  lemma MissingDownloadLeavesOnlyParkedCopy(fs: Files, self: string, parked: string, tmp: string)
    requires self in fs && parked !in fs && tmp !in fs && tmp != parked
    ensures var r := Restart(fs, self, parked, tmp);
      && r.failure == Some(SourceMissing(tmp))
      && |r.trace| == 1
      && self !in r.trace[0]
      && parked in r.trace[0] && r.trace[0][parked] == fs[self]
  {
  }

  /** `CleanupUpdate()`: delete the parked copy if it exists; a failing
      delete (`deleteFails`) is swallowed, so it never throws. */
  function CleanupUpdate(fs: Files, parked: string, deleteFails: bool): (r: Files)
    ensures !deleteFails ==> parked !in r
    ensures deleteFails ==> r == fs
    ensures forall p :: p != parked ==> (p in r <==> p in fs)
    ensures forall p :: p != parked && p in fs ==> r[p] == fs[p]
  {
    if parked in fs && !deleteFails then fs - {parked} else fs
  }

  /** Cleaning up twice is cleaning up once. */
  lemma CleanupIdempotent(fs: Files, parked: string, deleteFails: bool)
    ensures CleanupUpdate(CleanupUpdate(fs, parked, false), parked, deleteFails) == CleanupUpdate(fs, parked, false)
  {
  }

  /** A successful restart followed by a cleanup on the next start leaves
      the downloaded executable at the launcher path and neither the parked
      copy nor the download behind. */
  lemma RestartThenCleanup(fs: Files, self: string, parked: string, tmp: string)
    requires self in fs && parked !in fs && tmp in fs && tmp != self
    ensures var after := CleanupUpdate(Final(fs, Restart(fs, self, parked, tmp)), parked, false);
      && self in after && after[self] == fs[tmp]
      && parked !in after && tmp !in after
  {
    var last := Final(fs, Restart(fs, self, parked, tmp));
    assert self in last && last[self] == fs[tmp] && tmp !in last;
    assert self != parked;
  }
}

=== FILE: session.dfy ===
/** One update session (`Updater.DoUpdate`): optionally reinstall the stable
    build, plan a chain of patches to the desired build, apply the hops in
    order, fall back to stable when no chain exists, and exit. Downloads
    are oracles; the package and patch archives act on the modelled disk. */
module Orchestration {
  import opened Wrappers
  import opened Text
  import opened FileSystem
  import opened Paths
  import opened Planner
  import opened Patching
  import opened Extraction

  /** A stage of the session: a full package install or one patch hop. */
  datatype Stage = Install(version: int) | Patch(source: int, dest: int) {
    /** The version the installation is on once the stage has completed. */
    function Reaches(): int {
      match this
      case Install(v) => v
      case Patch(_, d) => d
    }
  }

  /** The persisted version record: the build and the server it came from. */
  datatype Record = Record(version: int, server: string)

  /** What the session learns from the outside world: the patch listing,
      the stable build number, the configured server, the launcher folder,
      the process's working directory, the codecs, and the downloads
      (`None` when a download fails). */
  datatype Env = Env(
    sources: Listing,
    stable: int,
    cdn: string,
    root: string,
    cwd: string,
    codecs: Codecs,
    package: int -> Option<seq<ZipEntry>>,
    patch: (int, int) -> Option<seq<PatchEntry>>)

  /** `Failed` is an exception escaping the session, which then ends without
      calling `Main.Exit`; `Exited` is a call to `Main.Exit`. */
  datatype Status = Running | Failed(stage: Stage) | Exited

  /** The session state: the version the installation is on, the record,
      the disk, every stage attempted so far in order, and the status. */
  datatype Session = Session(reached: int, record: Record, disk: Disk, attempted: seq<Stage>, status: Status)

  /** The attempted stages that completed: all of them, except the last one
      when it failed. */
  function Completed(s: Session): (r: seq<Stage>)
    ensures |r| <= |s.attempted| && r == s.attempted[..|r|]
    ensures s.status.Failed? && |s.attempted| > 0 ==> |r| == |s.attempted| - 1
  {
    if s.status.Failed? && |s.attempted| > 0 then s.attempted[..|s.attempted| - 1] else s.attempted
  }

  /** Every patch hop starts from the version the stage before it reached
      (or from `start` when it is the first stage). */
  ghost predicate Chained(start: int, stages: seq<Stage>) {
    && (|stages| > 0 && stages[0].Patch? ==> stages[0].source == start)
    && (forall k :: 0 < k < |stages| && stages[k].Patch? ==> stages[k].source == stages[k - 1].Reaches())
  }

  /** The session invariant: a failure names the last attempted stage; the
      record and the reached version follow the last completed stage and
      nothing else (they are untouched while no stage has completed); and
      the hops chain. */
  ghost predicate Tracks(env: Env, start: int, initial: Record, s: Session) {
    var done := Completed(s);
    && (s.status.Failed? ==> |s.attempted| > 0 && s.status.stage == s.attempted[|s.attempted| - 1])
    && (|done| == 0 ==> s.reached == start && s.record == initial)
    && (|done| > 0 ==> s.reached == done[|done| - 1].Reaches() && s.record == Record(s.reached, env.cdn))
    && Chained(start, s.attempted)
  }

  /** The hops a plan prescribes from `from`: each patch goes from the
      previous destination to the next one. */
  function Hops(from: int, plan: seq<int>): (r: seq<Stage>)
    ensures |r| == |plan|
    ensures forall k :: 0 <= k < |plan| ==> r[k] == Patch(if k == 0 then from else plan[k - 1], plan[k])
    decreases |plan|
  {
    if |plan| == 0 then []
    else
      var rest := Hops(plan[0], plan[1..]);
      assert forall k :: 1 <= k < |plan| ==> plan[k] == plan[1..][k - 1];
      [Patch(from, plan[0])] + rest
  }

  /** The disk after a stage, and whether the stage completed. */
  datatype Outcome = Outcome(disk: Disk, completed: bool)

  /** `UpdateUsingZip(v)` up to `SetVersion`: download the package, then
      extract it; a failed download, an escaping entry or a write the disk
      refuses throws. */
  function InstallOutcome(env: Env, v: int, disk: Disk): (o: Outcome)
    ensures o.completed <==> (env.package(v).Some? &&
      (forall j :: 0 <= j < |env.package(v).value| ==> Admitted(FullPathIn(env.cwd), env.root, env.package(v).value[j])) &&
      WriteAll(FullPathIn(env.cwd), env.root, env.package(v).value, disk).failure.None?)
    ensures env.package(v).None? ==> o.disk == disk
    ensures disk.dirs <= o.disk.dirs
    ensures WellFormed(disk) ==> WellFormed(o.disk)
  {
    match env.package(v)
    case None => Outcome(disk, false)
    case Some(entries) =>
      var fullPath := FullPathIn(env.cwd);
      var x := ExtractZip(fullPath, env.root, entries, disk);
      assert disk.dirs <= x.disk.dirs && (WellFormed(disk) ==> WellFormed(x.disk)) by {
        ExtractZipWritesOnlyAdmitted(fullPath, env.root, entries, disk);
        if WellFormed(disk) {
          ExtractZipKeepsWellFormed(fullPath, env.root, entries, disk);
        }
      }
      assert x.failure.None? <==>
        (forall j :: 0 <= j < |entries| ==> Admitted(fullPath, env.root, entries[j])) &&
        WriteAll(fullPath, env.root, entries, disk).failure.None? by {
        ExtractZipCompletesIff(fullPath, env.root, entries, disk);
      }
      Outcome(x.disk, x.failure.None?)
  }

  /** `UpdateUsingPatch(source, dest)` up to `SetVersion`: download the
      patch, then apply it; a failed download or a failing entry throws. */
  function PatchOutcome(env: Env, source: int, dest: int, disk: Disk): (o: Outcome)
    ensures o.completed <==> (env.patch(source, dest).Some? &&
      ApplyPatch(env.codecs, env.cwd, env.patch(source, dest).value, disk).failure.None?)
    ensures env.patch(source, dest).None? ==> o.disk == disk
    ensures o.disk.dirs == disk.dirs
    ensures forall p :: p in disk.files ==> p in o.disk.files
    ensures WellFormed(disk) ==> WellFormed(o.disk)
  {
    match env.patch(source, dest)
    case None => Outcome(disk, false)
    case Some(entries) =>
      var a := ApplyPatch(env.codecs, env.cwd, entries, disk);
      Outcome(a.disk, a.failure.None?)
  }

  function StageOutcome(env: Env, stage: Stage, disk: Disk): Outcome {
    match stage
    case Install(v) => InstallOutcome(env, v, disk)
    case Patch(source, dest) => PatchOutcome(env, source, dest, disk)
  }

  /** One stage within the session: the stage is recorded as attempted,
      its disk effect is kept whatever happens, and the reached version and
      the record move to the stage's version only when it completed. */
  function RunStage(env: Env, s: Session, stage: Stage): (r: Session)
    requires s.status.Running?
    ensures r.attempted == s.attempted + [stage]
    ensures r.status.Running? || r.status == Failed(stage)
    ensures r.status.Running? <==> StageOutcome(env, stage, s.disk).completed
    ensures r.status.Running? ==> r.reached == stage.Reaches() && r.record == Record(stage.Reaches(), env.cdn)
    ensures r.status.Failed? ==> r.reached == s.reached && r.record == s.record
    ensures r.disk == StageOutcome(env, stage, s.disk).disk
  {
    var o := StageOutcome(env, stage, s.disk);
    var tried := s.(attempted := s.attempted + [stage], disk := o.disk);
    if o.completed then tried.(reached := stage.Reaches(), record := Record(stage.Reaches(), env.cdn))
    else tried.(status := Failed(stage))
  }

  /** A stage keeps the session invariant, provided a patch hop starts
      where the session stands. */
  lemma RunStageTracks(env: Env, start: int, initial: Record, s: Session, stage: Stage)
    requires s.status.Running? && Tracks(env, start, initial, s)
    requires stage.Patch? ==> stage.source == s.reached
    ensures Tracks(env, start, initial, RunStage(env, s, stage))
  {
    StepTracks(env, start, initial, s, stage, RunStage(env, s, stage));
  }

  /** Any step with `RunStage`'s contract keeps the invariant. */
  lemma StepTracks(env: Env, start: int, initial: Record, s: Session, stage: Stage, r: Session)
    requires s.status.Running? && Tracks(env, start, initial, s)
    requires stage.Patch? ==> stage.source == s.reached
    requires r.attempted == s.attempted + [stage]
    requires r.status.Running? || r.status == Failed(stage)
    requires r.status.Running? ==> r.reached == stage.Reaches() && r.record == Record(stage.Reaches(), env.cdn)
    requires r.status.Failed? ==> r.reached == s.reached && r.record == s.record
    ensures Tracks(env, start, initial, r)
  {
    assert Completed(s) == s.attempted;
    assert Chained(start, r.attempted) by {
      var n := |s.attempted|;
      assert n > 0 ==> s.reached == s.attempted[n - 1].Reaches();
      assert n == 0 ==> s.reached == start;
      ChainedExtend(start, s.attempted, stage, s.reached);
    }
    if r.status.Failed? {
      assert Completed(r) == s.attempted;
    } else {
      assert Completed(r) == r.attempted;
    }
  }

  /** Appending a hop that starts where the chain ends keeps it chained. */
  lemma ChainedExtend(start: int, stages: seq<Stage>, stage: Stage, at: int)
    requires Chained(start, stages)
    requires |stages| == 0 ==> at == start
    requires |stages| > 0 ==> at == stages[|stages| - 1].Reaches()
    requires stage.Patch? ==> stage.source == at
    ensures Chained(start, stages + [stage])
  {
    var all := stages + [stage];
    var n := |stages|;
    if n > 0 {
      assert all[0] == stages[0];
    }
    forall k | 0 < k < |all| && all[k].Patch?
      ensures all[k].source == all[k - 1].Reaches()
    {
      if k < n {
        assert all[k] == stages[k] && all[k - 1] == stages[k - 1];
      } else {
        assert all[k] == stage && all[k - 1] == stages[n - 1];
      }
    }
  }

  /** `foreach (int patch in patches) current = UpdateUsingPatch(current, patch)`:
      the hops in order, stopping at the first one that throws. */
  function RunPatches(env: Env, s: Session, plan: seq<int>): (r: Session)
    requires !s.status.Exited?
    ensures !r.status.Exited?
    ensures s.status.Failed? ==> r == s
    decreases |plan|
  {
    if |plan| == 0 || s.status.Failed? then s
    else RunPatches(env, RunStage(env, s, Patch(s.reached, plan[0])), plan[1..])
  }

  /** One hop at the head of the plan, then the rest of the plan. */
  lemma RunPatchesStep(env: Env, s: Session, plan: seq<int>)
    requires s.status.Running? && |plan| > 0
    ensures var next := RunStage(env, s, Patch(s.reached, plan[0]));
      && next.attempted == s.attempted + [Patch(s.reached, plan[0])]
      && (next.status.Failed? ==> RunPatches(env, s, plan) == next)
      && (next.status.Running? ==> next.reached == plan[0] && RunPatches(env, s, plan) == RunPatches(env, next, plan[1..]))
  {
  }

  /** How many hops run: all of them when none fails, at least one
      otherwise. */
  lemma {:induction false} RunPatchesCount(env: Env, s: Session, plan: seq<int>)
    requires s.status.Running?
    ensures var r := RunPatches(env, s, plan);
      var n := |r.attempted| - |s.attempted|;
      && 0 <= n <= |plan|
      && r.attempted[..|s.attempted|] == s.attempted
      && (r.status.Running? ==> n == |plan| && r.reached == (if |plan| == 0 then s.reached else plan[|plan| - 1]))
      && (r.status.Failed? ==> n >= 1)
    decreases |plan|
  {
    if |plan| > 0 {
      RunPatchesStep(env, s, plan);
      var next := RunStage(env, s, Patch(s.reached, plan[0]));
      if next.status.Running? {
        RunPatchesCount(env, next, plan[1..]);
        var r := RunPatches(env, next, plan[1..]);
        assert r.attempted[..|s.attempted|] == next.attempted[..|s.attempted|] == s.attempted by {
          assert r.attempted[..|next.attempted|] == next.attempted;
        }
        assert r.status.Running? && |plan| > 1 ==> r.reached == plan[|plan| - 1] by {
          if |plan| > 1 {
            assert plan[1..][|plan[1..]| - 1] == plan[|plan| - 1];
          }
        }
      }
    }
  }

  /** The hops run are a prefix of those the plan prescribes; when none
      fails, all of them run and the session stands on the plan's last
      version. */
  lemma {:induction false} RunPatchesFollowsHops(env: Env, s: Session, plan: seq<int>)
    requires s.status.Running?
    ensures var r := RunPatches(env, s, plan);
      var n := |r.attempted| - |s.attempted|;
      && 0 <= n <= |plan|
      && r.attempted == s.attempted + Hops(s.reached, plan)[..n]
      && (r.status.Running? ==> n == |plan| && r.reached == (if |plan| == 0 then s.reached else plan[|plan| - 1]))
      && (r.status.Failed? ==> n >= 1)
    decreases |plan|
  {
    RunPatchesCount(env, s, plan);
    if |plan| == 0 {
      assert s.attempted + Hops(s.reached, plan)[..0] == s.attempted;
    } else {
      var stage := Patch(s.reached, plan[0]);
      var next := RunStage(env, s, stage);
      RunPatchesStep(env, s, plan);
      var hops := Hops(s.reached, plan);
      assert hops == [stage] + Hops(plan[0], plan[1..]);
      if next.status.Failed? {
        assert hops[..1] == [stage];
      } else {
        RunPatchesFollowsHops(env, next, plan[1..]);
        var r := RunPatches(env, next, plan[1..]);
        HopsPrefixStep(s.attempted, stage, Hops(plan[0], plan[1..]), |r.attempted| - |next.attempted|, r.attempted);
      }
    }
  }

  /** One more hop in front of a run prefix of the remaining hops. */
  lemma HopsPrefixStep(prefix: seq<Stage>, stage: Stage, rest: seq<Stage>, m: nat, all: seq<Stage>)
    requires m <= |rest| && all == prefix + [stage] + rest[..m]
    ensures all == prefix + ([stage] + rest)[..m + 1]
  {
    assert ([stage] + rest)[..m + 1] == [stage] + rest[..m];
  }

  /** The hops keep the session invariant. */
  lemma {:induction false} RunPatchesTracks(env: Env, start: int, initial: Record, s: Session, plan: seq<int>)
    requires s.status.Running? && Tracks(env, start, initial, s)
    ensures Tracks(env, start, initial, RunPatches(env, s, plan))
    decreases |plan|
  {
    if |plan| > 0 {
      var next := RunStage(env, s, Patch(s.reached, plan[0]));
      RunStageTracks(env, start, initial, s, Patch(s.reached, plan[0]));
      if next.status.Running? {
        RunPatchesTracks(env, start, initial, next, plan[1..]);
      }
    }
  }

  /** `Main.Exit()` unless an exception is on its way out. */
  function Finish(s: Session): (r: Session)
    ensures r.status == (if s.status.Running? then Exited else s.status)
    ensures r.(status := s.status) == s
  {
    if s.status.Running? then s.(status := Exited) else s
  }

  /** Whether the session starts with a full reinstall of stable: the
      installation came from another server, or is newer than desired. */
  predicate Reinstalls(env: Env, current: int, desired: int, record: Record) {
    record.server != env.cdn || current > desired
  }

  /** What `DoUpdate` does once the installation is on `s.reached` and no
      reinstall is pending: nothing when it is not below desired;
      otherwise follow a plan if there is one, or fall back to stable. */
  function Proceed(env: Env, s: Session, desired: int): (r: Session)
    requires s.status.Running? && ForwardBetween(env.sources, s.reached, desired)
    ensures !r.status.Running?
    ensures |r.attempted| >= |s.attempted| && r.attempted[..|s.attempted|] == s.attempted
    ensures forall k :: |s.attempted| <= k < |r.attempted| && r.attempted[k].Install? ==> r.attempted[k].version == env.stable
    ensures r.status.Exited? ==> r.reached == env.stable || r.reached == desired || (r.reached == s.reached && s.reached >= desired)
    ensures r.attempted == s.attempted ==> r.reached == s.reached && r.record == s.record
  {
    if s.reached < desired then
      match FindPath(env.sources, s.reached, desired)
      case None => Fallback(env, s)
      case Some(plan) => FollowPlan(env, s, plan, desired)
    else Finish(s)
  }

  /** No route: reinstall stable unless it is already installed. */
  function Fallback(env: Env, s: Session): (r: Session)
    requires s.status.Running?
    ensures !r.status.Running?
    ensures r.attempted == if s.reached != env.stable then s.attempted + [Install(env.stable)] else s.attempted
    ensures r.status.Exited? ==> r.reached == env.stable
    ensures r.attempted == s.attempted ==> r.reached == s.reached && r.record == s.record
  {
    if s.reached != env.stable then
      var t := RunStage(env, s, Install(env.stable));
      assert t.attempted[..|s.attempted|] == s.attempted;
      Finish(t)
    else Finish(s)
  }

  /** A route exists: apply its patches in order. */
  function FollowPlan(env: Env, s: Session, plan: seq<int>, desired: int): (r: Session)
    requires s.status.Running? && ValidPlan(env.sources, s.reached, desired, plan)
    ensures !r.status.Running?
    ensures |r.attempted| > |s.attempted| && r.attempted[..|s.attempted|] == s.attempted
    ensures forall k :: |s.attempted| <= k < |r.attempted| ==> r.attempted[k].Patch?
    ensures r.status.Exited? ==> r.reached == desired
  {
    var r := RunPatches(env, s, plan);
    var n := |r.attempted| - |s.attempted|;
    assert && (r.status.Running? ==> r.reached == desired)
      && 1 <= n <= |plan|
      && r.attempted == s.attempted + Hops(s.reached, plan)[..n] by {
      RunPatchesFollowsHops(env, s, plan);
    }
    assert forall k :: |s.attempted| <= k < |r.attempted| ==> r.attempted[k].Patch? by {
      AppendedHopsArePatches(s.attempted, s.reached, plan, n, r.attempted);
    }
    Finish(r)
  }

  /** Stages appended from a plan are all patch hops. */
  lemma AppendedHopsArePatches(prefix: seq<Stage>, from: int, plan: seq<int>, n: nat, all: seq<Stage>)
    requires n <= |plan| && all == prefix + Hops(from, plan)[..n]
    ensures all[..|prefix|] == prefix
    ensures forall k :: |prefix| <= k < |all| ==> all[k].Patch?
  {
    var hops := Hops(from, plan);
    forall k | |prefix| <= k < |all|
      ensures all[k].Patch?
    {
      var j := k - |prefix|;
      assert all[k] == hops[..n][j] == hops[j];
      assert hops[j] == Patch(if j == 0 then from else plan[j - 1], plan[j]);
    }
  }

  /** `DoUpdate(current, desired)`: reinstall stable first when the record
      names another server or the installation is newer than desired, then
      proceed from wherever that left the installation. Termination of the
      planner needs the listing to point backwards from both possible
      starting points. */
  function DoUpdate(env: Env, current: int, desired: int, record: Record, disk: Disk): (r: Session)
    requires ForwardBetween(env.sources, current, desired) && ForwardBetween(env.sources, env.stable, desired)
    ensures !r.status.Running?
    ensures Reinstalls(env, current, desired, record) ==> |r.attempted| >= 1 && r.attempted[0] == Install(env.stable)
    ensures forall k :: 0 <= k < |r.attempted| && r.attempted[k].Install? ==> r.attempted[k].version == env.stable
    ensures r.status.Exited? ==> r.reached == desired || r.reached == env.stable
  {
    var s0 := Session(current, record, disk, [], Running);
    var s1 := if Reinstalls(env, current, desired, record) then RunStage(env, s0, Install(env.stable)) else s0;
    assert s1.attempted == (if Reinstalls(env, current, desired, record) then [Install(env.stable)] else []);
    assert s1.status.Running? ==> s1.reached == (if Reinstalls(env, current, desired, record) then env.stable else current);
    if !s1.status.Running? then s1
    else
      var r := Proceed(env, s1, desired);
      assert r.attempted[..|s1.attempted|] == s1.attempted;
      assert Reinstalls(env, current, desired, record) ==> r.attempted[0] == s1.attempted[0];
      assert !Reinstalls(env, current, desired, record) ==> current <= desired;
      assert forall k :: 0 <= k < |r.attempted| && r.attempted[k].Install? ==> r.attempted[k].version == env.stable by {
        InstallsExtend(s1.attempted, r.attempted, env.stable);
      }
      r
  }

  /** Stages appended after a prefix of stable installs, themselves
      installing only stable, install only stable. */
  lemma InstallsExtend(prefix: seq<Stage>, all: seq<Stage>, stable: int)
    requires |prefix| <= |all| && all[..|prefix|] == prefix
    requires forall k :: 0 <= k < |prefix| && prefix[k].Install? ==> prefix[k].version == stable
    requires forall k :: |prefix| <= k < |all| && all[k].Install? ==> all[k].version == stable
    ensures forall k :: 0 <= k < |all| && all[k].Install? ==> all[k].version == stable
  {
    forall k | 0 <= k < |prefix|
      ensures all[k] == prefix[k]
    {
      assert all[..|prefix|][k] == all[k];
    }
  }

  /** Ending the session keeps the invariant. */
  lemma FinishTracks(env: Env, start: int, initial: Record, s: Session)
    requires Tracks(env, start, initial, s)
    ensures Tracks(env, start, initial, Finish(s))
  {
    assert Completed(Finish(s)) == Completed(s);
  }

  /** `Proceed` keeps the invariant. */
  lemma ProceedTracks(env: Env, start: int, initial: Record, s: Session, desired: int)
    requires s.status.Running? && ForwardBetween(env.sources, s.reached, desired)
    requires Tracks(env, start, initial, s)
    ensures Tracks(env, start, initial, Proceed(env, s, desired))
  {
    if s.reached < desired {
      match FindPath(env.sources, s.reached, desired)
      case None =>
        if s.reached != env.stable {
          RunStageTracks(env, start, initial, s, Install(env.stable));
          FinishTracks(env, start, initial, RunStage(env, s, Install(env.stable)));
        } else {
          FinishTracks(env, start, initial, s);
        }
      case Some(plan) =>
        RunPatchesTracks(env, start, initial, s, plan);
        FinishTracks(env, start, initial, RunPatches(env, s, plan));
    } else {
      FinishTracks(env, start, initial, s);
    }
  }

  /** The session keeps its invariant, and a session that exits leaves a
      record naming the configured server. */
  lemma DoUpdateTracks(env: Env, current: int, desired: int, record: Record, disk: Disk)
    requires ForwardBetween(env.sources, current, desired) && ForwardBetween(env.sources, env.stable, desired)
    ensures var r := DoUpdate(env, current, desired, record, disk);
      && Tracks(env, current, record, r)
      && (r.status.Exited? ==> r.record.server == env.cdn)
  {
    var s0 := Session(current, record, disk, [], Running);
    assert Tracks(env, current, record, s0);
    var s1 := if Reinstalls(env, current, desired, record) then RunStage(env, s0, Install(env.stable)) else s0;
    assert Tracks(env, current, record, s1) by {
      if Reinstalls(env, current, desired, record) {
        RunStageTracks(env, current, record, s0, Install(env.stable));
      }
    }
    if s1.status.Running? {
      ProceedTracks(env, current, record, s1, desired);
    }
    var r := DoUpdate(env, current, desired, record, disk);
    if r.status.Exited? && |Completed(r)| == 0 {
      assert r.attempted == [];
    }
  }

  /** A session on the desired build from the configured server touches
      nothing and exits at once. */
  lemma NothingToDo(env: Env, current: int, record: Record, disk: Disk)
    requires ForwardBetween(env.sources, env.stable, current)
    requires record.server == env.cdn
    ensures DoUpdate(env, current, current, record, disk) == Session(current, record, disk, [], Exited)
  {
  }

  /** Without a reinstall, a session below desired with a plan attempts
      exactly the plan's hops in order, stopping at the first failure; when
      it exits, it stands on the desired build and the record says so. */
  lemma FollowsPlan(env: Env, current: int, desired: int, record: Record, disk: Disk, plan: seq<int>)
    requires ForwardBetween(env.sources, current, desired) && ForwardBetween(env.sources, env.stable, desired)
    requires !Reinstalls(env, current, desired, record) && current < desired
    requires FindPath(env.sources, current, desired) == Some(plan)
    ensures var r := DoUpdate(env, current, desired, record, disk);
      && 1 <= |r.attempted| <= |plan|
      && r.attempted == Hops(current, plan)[..|r.attempted|]
      && (r.status.Exited? ==> r.attempted == Hops(current, plan) && r.reached == desired && r.record == Record(desired, env.cdn))
  {
    var s0 := Session(current, record, disk, [], Running);
    var r := RunPatches(env, s0, plan);
    assert DoUpdate(env, current, desired, record, disk) == Finish(r);
    assert 1 <= |r.attempted| <= |plan| && r.attempted == Hops(current, plan)[..|r.attempted|]
      && (r.status.Running? ==> r.attempted == Hops(current, plan) && r.reached == desired) by {
      RunPatchesFollowsHops(env, s0, plan);
      assert [] + Hops(current, plan)[..|r.attempted|] == Hops(current, plan)[..|r.attempted|];
      assert Hops(current, plan)[..|plan|] == Hops(current, plan);
    }
    assert r.status.Running? ==> r.record == Record(desired, env.cdn) by {
      RunPatchesTracks(env, current, record, s0, plan);
      if r.status.Running? {
        assert Completed(r) == r.attempted;
      }
    }
  }

  /** Without a reinstall and without a plan, the session reinstalls stable
      unless it is already on it, then exits. */
  lemma NoPlanFallsBackToStable(env: Env, current: int, desired: int, record: Record, disk: Disk)
    requires ForwardBetween(env.sources, current, desired) && ForwardBetween(env.sources, env.stable, desired)
    requires !Reinstalls(env, current, desired, record) && current < desired
    requires FindPath(env.sources, current, desired).None?
    ensures var r := DoUpdate(env, current, desired, record, disk);
      && r.attempted == (if current != env.stable then [Install(env.stable)] else [])
      && (current == env.stable ==> r == Session(current, record, disk, [], Exited))
      && (r.status.Exited? ==> r.reached == env.stable)
  {
  }

  /** A failed reinstall ends the session at once, with the record as it was. */
  lemma FailedReinstallEnds(env: Env, current: int, desired: int, record: Record, disk: Disk)
    requires ForwardBetween(env.sources, current, desired) && ForwardBetween(env.sources, env.stable, desired)
    requires Reinstalls(env, current, desired, record)
    requires !InstallOutcome(env, env.stable, disk).completed
    ensures var r := DoUpdate(env, current, desired, record, disk);
      && r.status == Failed(Install(env.stable))
      && r.attempted == [Install(env.stable)]
      && r.reached == current && r.record == record
      && r.disk == InstallOutcome(env, env.stable, disk).disk
  {
  }

  /** After a completed reinstall below desired, the hops start from stable. */
  lemma ReinstallThenPlan(env: Env, current: int, desired: int, record: Record, disk: Disk, plan: seq<int>)
    requires ForwardBetween(env.sources, current, desired) && ForwardBetween(env.sources, env.stable, desired)
    requires Reinstalls(env, current, desired, record)
    requires InstallOutcome(env, env.stable, disk).completed
    requires env.stable < desired && FindPath(env.sources, env.stable, desired) == Some(plan)
    ensures var r := DoUpdate(env, current, desired, record, disk);
      && 2 <= |r.attempted| <= |plan| + 1
      && r.attempted == [Install(env.stable)] + Hops(env.stable, plan)[..|r.attempted| - 1]
  {
    var s0 := Session(current, record, disk, [], Running);
    var s1 := RunStage(env, s0, Install(env.stable));
    assert s1.status.Running? && s1.reached == env.stable && s1.attempted == [Install(env.stable)];
    assert DoUpdate(env, current, desired, record, disk) == FollowPlan(env, s1, plan, desired);
    PlanAfterInstall(env, s1, plan, desired);
  }

  /** The patches of a plan, applied after the reinstall, follow its hops. */
  lemma PlanAfterInstall(env: Env, s1: Session, plan: seq<int>, desired: int)
    requires s1.status.Running? && s1.reached == env.stable && s1.attempted == [Install(env.stable)]
    requires ValidPlan(env.sources, env.stable, desired, plan)
    ensures var r := FollowPlan(env, s1, plan, desired);
      && 2 <= |r.attempted| <= |plan| + 1
      && r.attempted == [Install(env.stable)] + Hops(env.stable, plan)[..|r.attempted| - 1]
  {
    RunPatchesFollowsHops(env, s1, plan);
  }

  /** When the launcher runs from its own folder, a codec entry
      `xdelta/rest` reads and rewrites the very file the package entry
      `chromapper/rest` was extracted to, provided `rest` does not mention
      the codec name. The folder may be written with or without a trailing
      separator. */
  lemma PatchReadsExtractedFile(root: string, rest: string, content: Bytes)
    requires |root| > 0 && root[0] == '/'
    requires |rest| > 0 && rest[0] != '/' && !Occurs(rest, "xdelta")
    ensures var route := Classify("xdelta" + "/" + rest);
      && route.Success? && route.value.codec == Xdelta
      && FullPath(root, route.value.target) == Destination(FullPathIn(root), root, ZipEntry("chromapper/" + rest, content))
  {
    XdeltaRoute(rest);
    PackagePrefix(rest);
    ExtractedInPlace(root, PackageRoot + "/" + rest, content);
  }

  /** A relative entry name lands where the same relative path resolves
      from the launcher folder. */
  lemma ExtractedInPlace(root: string, name: string, content: Bytes)
    requires |root| > 0 && root[0] == '/'
    requires |name| > 0 && name[0] != '/'
    ensures Destination(FullPathIn(root), root, ZipEntry(name, content)) == FullPath(root, name)
  {
    var placed := Combine(root, name);
    assert placed[0] == '/' by {
      CombineKeepsBoth(root, name);
    }
    FullPathOfRooted(root, placed);
  }
}

=== FILE: text.dfy ===
/** Ordinal string operations of the .NET base library that the launcher
    relies on: `StartsWith`, `IndexOf`, `LastIndexOf`, `Replace`,
    `string.Join` and splitting on one separator character. */
module Text {

  /** Ordinal `s.StartsWith(prefix)`. */
  predicate StartsWith(s: string, prefix: string) {
    |prefix| <= |s| && s[..|prefix|] == prefix
  }

  /** `s.IndexOf(c)`: the first position of `c`, or -1 when `c` is absent. */
  function IndexOf(s: string, c: char): (i: int)
    ensures -1 <= i < |s|
    ensures i == -1 <==> c !in s
    ensures 0 <= i ==> s[i] == c && c !in s[..i]
  {
    if |s| == 0 then -1
    else if s[0] == c then 0
    else
      var j := IndexOf(s[1..], c);
      if j == -1 then -1 else j + 1
  }

  /** `s.LastIndexOf(c)`: the last position of `c`, or -1 when `c` is absent. */
  function LastIndexOf(s: string, c: char): (i: int)
    ensures -1 <= i < |s|
    ensures i == -1 <==> c !in s
    ensures 0 <= i ==> s[i] == c && c !in s[i + 1..]
  {
    if |s| == 0 then -1
    else if s[|s| - 1] == c then
      assert s[|s|..] == [];
      |s| - 1
    else
      var j := LastIndexOf(s[..|s| - 1], c);
      LastOfInit(s, c, j);
      j
  }

  /** Where the last occurrence lies once a final character other than
      `c` is put back. */
  lemma LastOfInit(s: string, c: char, j: int)
    requires |s| > 0 && s[|s| - 1] != c
    requires -1 <= j < |s| - 1
    requires j == -1 <==> c !in s[..|s| - 1]
    requires 0 <= j ==> s[j] == c && c !in s[..|s| - 1][j + 1..]
    ensures j == -1 <==> c !in s
    ensures 0 <= j ==> c !in s[j + 1..]
  {
    var init := s[..|s| - 1];
    assert s == init + [s[|s| - 1]];
    if j == -1 {
      assert forall x :: x in s ==> x in init || x == s[|s| - 1];
    } else {
      assert s[j + 1..] == init[j + 1..] + [s[|s| - 1]];
    }
  }

  /** The separator is found exactly at the end of a separator-free head. */
  lemma {:induction false} IndexOfAfterHead(a: string, c: char, b: string)
    requires c !in a
    ensures IndexOf(a + [c] + b, c) == |a|
    decreases |a|
  {
    var s := a + [c] + b;
    if |a| > 0 {
      assert s[0] == a[0];
      assert s[1..] == a[1..] + [c] + b;
      IndexOfAfterHead(a[1..], c, b);
    }
  }

  /** Whether `pat` occurs anywhere in `s`. */
  predicate Occurs(s: string, pat: string)
    decreases |s|
  {
    |pat| <= |s| && (StartsWith(s, pat) || Occurs(s[1..], pat))
  }

  /** Ordinal `s.Replace(pat, rep)`: every non-overlapping occurrence of
      `pat`, scanning left to right, is replaced. */
  function ReplaceAll(s: string, pat: string, rep: string): (r: string)
    requires |pat| > 0
    ensures rep == pat ==> r == s
    ensures |rep| == |pat| ==> |r| == |s|
    decreases |s|
  {
    if |s| < |pat| then s
    else if StartsWith(s, pat) then rep + ReplaceAll(s[|pat|..], pat, rep)
    else [s[0]] + ReplaceAll(s[1..], pat, rep)
  }

  /** The first occurrence, scanning left to right, is replaced, and the
      scan resumes after it: `a` holds no occurrence, and none starts in
      `a` and runs into the occurrence that follows it. */
  lemma {:induction false} ReplaceFirst(a: string, pat: string, b: string, rep: string)
    requires |pat| > 0
    requires !Occurs(a + pat[..|pat| - 1], pat)
    ensures ReplaceAll(a + pat + b, pat, rep) == a + rep + ReplaceAll(b, pat, rep)
    decreases |a|
  {
    if |a| == 0 {
      assert a + pat + b == pat + b;
      ReplaceLeading(pat, b, rep);
    } else {
      NoOccurrenceBefore(a, pat, b);
      ReplaceFirst(a[1..], pat, b, rep);
      ReplaceFirstStep(a, pat, b, rep);
    }
  }

  /** Replacing a pattern that does not occur returns the string unchanged. */
  lemma {:induction false} ReplaceAbsent(s: string, pat: string, rep: string)
    requires |pat| > 0
    requires !Occurs(s, pat)
    ensures ReplaceAll(s, pat, rep) == s
    decreases |s|
  {
    if |s| >= |pat| {
      ReplaceAbsent(s[1..], pat, rep);
      assert s == [s[0]] + s[1..];
    }
  }

  /** Every character of the result comes from the string or from the
      replacement. */
  lemma {:induction false} ReplaceDrawsFrom(s: string, pat: string, rep: string)
    requires |pat| > 0
    ensures forall c :: c in ReplaceAll(s, pat, rep) ==> c in s || c in rep
    decreases |s|
  {
    if |s| >= |pat| {
      var r := ReplaceAll(s, pat, rep);
      if StartsWith(s, pat) {
        ReplaceDrawsFrom(s[|pat|..], pat, rep);
        assert forall c :: c in s[|pat|..] ==> c in s;
      } else {
        ReplaceDrawsFrom(s[1..], pat, rep);
        assert forall c :: c in s[1..] ==> c in s;
      }
    }
  }

  /** One step of `ReplaceFirst`: the first character of `a` is kept in
      front of what replacing in the rest gives. */
  lemma ReplaceFirstStep(a: string, pat: string, b: string, rep: string)
    requires |pat| > 0 && |a| > 0 && !StartsWith(a + pat + b, pat)
    requires ReplaceAll(a[1..] + pat + b, pat, rep) == a[1..] + rep + ReplaceAll(b, pat, rep)
    ensures ReplaceAll(a + pat + b, pat, rep) == a + rep + ReplaceAll(b, pat, rep)
  {
    var s := a + pat + b;
    var t := ReplaceAll(b, pat, rep);
    assert s[0] == a[0] && s[1..] == a[1..] + pat + b;
    ReplaceSkips(s, pat, rep);
    ConsRest(a, rep, t);
  }

  lemma ConsRest(a: string, x: string, y: string)
    requires |a| > 0
    ensures [a[0]] + (a[1..] + x + y) == a + x + y
  {
    assert a == [a[0]] + a[1..];
  }

  /** A string that does not start with the pattern keeps its first
      character in front of the replaced remainder. */
  lemma ReplaceSkips(s: string, pat: string, rep: string)
    requires |pat| > 0 && |s| > 0 && !StartsWith(s, pat)
    ensures ReplaceAll(s, pat, rep) == [s[0]] + ReplaceAll(s[1..], pat, rep)
  {
  }

  /** A string `a + pat + b` with no occurrence starting in `a` does not
      start with the pattern, and the same holds one character on. */
  lemma NoOccurrenceBefore(a: string, pat: string, b: string)
    requires |pat| > 0 && |a| > 0
    requires !Occurs(a + pat[..|pat| - 1], pat)
    ensures !StartsWith(a + pat + b, pat)
    ensures !Occurs(a[1..] + pat[..|pat| - 1], pat)
  {
    var s := a + pat + b;
    var x := a + pat[..|pat| - 1];
    assert s[..|pat|] == x[..|pat|];
    assert x[1..] == a[1..] + pat[..|pat| - 1];
  }

  /** A leading occurrence is replaced and the rest is processed on its own. */
  lemma ReplaceLeading(pat: string, rest: string, rep: string)
    requires |pat| > 0
    ensures ReplaceAll(pat + rest, pat, rep) == rep + ReplaceAll(rest, pat, rep)
  {
    var s := pat + rest;
    assert StartsWith(s, pat);
    assert s[|pat|..] == rest;
  }

  /** A string whose first character cannot begin the pattern keeps that
      character in front of the replaced remainder. */
  lemma ReplaceKeepsHead(c: char, rest: string, pat: string, rep: string)
    requires |pat| > 0 && pat[0] != c
    ensures ReplaceAll([c] + rest, pat, rep) == [c] + ReplaceAll(rest, pat, rep)
  {
    var s := [c] + rest;
    assert s[1..] == rest;
    if |s| >= |pat| {
      assert !StartsWith(s, pat) by {
        assert s[..|pat|][0] == c;
      }
    } else {
      assert |rest| < |pat|;
    }
  }

  /** `string.Join(sep, xs)`. */
  function Join(xs: seq<string>, sep: char): string
  {
    if |xs| == 0 then ""
    else if |xs| == 1 then xs[0]
    else xs[0] + [sep] + Join(xs[1..], sep)
  }

  /** Splitting on one separator character, keeping empty pieces. */
  function Split(s: string, sep: char): (r: seq<string>)
    ensures |r| >= 1
    ensures forall k :: 0 <= k < |r| ==> sep !in r[k]
    decreases |s|
  {
    var i := IndexOf(s, sep);
    if i == -1 then [s] else [s[..i]] + Split(s[i + 1..], sep)
  }

  /** No piece of `xs` contains the separator. */
  predicate SeparatorFree(xs: seq<string>, sep: char) {
    forall k :: 0 <= k < |xs| ==> sep !in xs[k]
  }

  /** A separator-free head is split off as the first piece. */
  lemma SplitHead(a: string, sep: char, b: string)
    requires sep !in a
    ensures Split(a + [sep] + b, sep) == [a] + Split(b, sep)
  {
    var s := a + [sep] + b;
    IndexOfAfterHead(a, sep, b);
    assert s[..|a|] == a;
    assert s[|a| + 1..] == b;
  }

  /** A leading separator splits off an empty first piece. */
  lemma SplitRooted(body: string, sep: char)
    ensures Split([sep] + body, sep) == [""] + Split(body, sep)
  {
    assert [sep] + body == "" + [sep] + body;
    SplitHead("", sep, body);
  }

  /** Splitting undoes joining, when no piece contains the separator. */
  lemma {:induction false} SplitJoin(xs: seq<string>, sep: char)
    requires |xs| >= 1 && SeparatorFree(xs, sep)
    ensures Split(Join(xs, sep), sep) == xs
  {
    if |xs| == 1 {
      assert IndexOf(xs[0], sep) == -1;
    } else {
      SplitHead(xs[0], sep, Join(xs[1..], sep));
      SplitJoin(xs[1..], sep);
      assert xs == [xs[0]] + xs[1..];
    }
  }

  /** Splitting a joined sequence followed by a separator and a tail. */
  lemma {:induction false} SplitJoinThen(xs: seq<string>, sep: char, tail: string)
    requires |xs| >= 1 && SeparatorFree(xs, sep)
    ensures Split(Join(xs, sep) + [sep] + tail, sep) == xs + Split(tail, sep)
  {
    if |xs| == 1 {
      SplitHead(xs[0], sep, tail);
    } else {
      var head, more := xs[0], xs[1..];
      assert xs == [head] + more;
      assert SeparatorFree(more, sep) && sep !in head;
      SplitJoinThen(more, sep, tail);
      SplitConsJoined(head, more, sep, tail);
      ConsAppend(head, more, Split(tail, sep));
    }
  }

  lemma ConsAppend(head: string, more: seq<string>, pieces: seq<string>)
    ensures [head] + (more + pieces) == ([head] + more) + pieces
  {
  }

  /** One step of `SplitJoinThen`: the head piece is split off first. */
  lemma SplitConsJoined(head: string, more: seq<string>, sep: char, tail: string)
    requires |more| >= 1 && sep !in head
    ensures Split(Join([head] + more, sep) + [sep] + tail, sep) == [head] + Split(Join(more, sep) + [sep] + tail, sep)
  {
    var after := Join(more, sep) + [sep] + tail;
    assert ([head] + more)[1..] == more;
    assert Join([head] + more, sep) + [sep] + tail == head + [sep] + after;
    SplitHead(head, sep, after);
  }

  /** The last character of a join of non-empty pieces is that of the last piece. */
  lemma {:induction false} JoinLast(xs: seq<string>, sep: char)
    requires |xs| >= 1 && |xs[|xs| - 1]| >= 1
    ensures |Join(xs, sep)| >= 1
    ensures Join(xs, sep)[|Join(xs, sep)| - 1] == xs[|xs| - 1][|xs[|xs| - 1]| - 1]
  {
    if |xs| > 1 {
      JoinLast(xs[1..], sep);
    }
  }

  /** A join of pieces whose first is non-empty starts with that piece's
      first character. */
  lemma JoinFirst(xs: seq<string>, sep: char)
    requires |xs| >= 1 && |xs[0]| >= 1
    ensures |Join(xs, sep)| >= 1 && Join(xs, sep)[0] == xs[0][0]
  {
  }

  /** Joining a head in front of at least one more piece. */
  lemma JoinCons(x: string, xs: seq<string>, sep: char)
    requires |xs| >= 1
    ensures Join([x] + xs, sep) == x + [sep] + Join(xs, sep)
  {
    assert ([x] + xs)[1..] == xs;
  }

  lemma JoinThree(a: string, b: string, c: string, sep: char)
    ensures Join([a, b, c], sep) == a + [sep] + b + [sep] + c
  {
    JoinCons(b, [c], sep);
    assert [b, c] == [b] + [c];
    JoinCons(a, [b, c], sep);
    assert [a, b, c] == [a] + [b, c];
  }

  lemma JoinFive(a: string, b: string, c: string, d: string, e: string, sep: char)
    ensures Join([a, b, c, d, e], sep) == a + [sep] + b + [sep] + c + [sep] + d + [sep] + e
  {
    JoinThree(c, d, e, sep);
    JoinCons(b, [c, d, e], sep);
    assert [b, c, d, e] == [b] + [c, d, e];
    JoinCons(a, [b, c, d, e], sep);
    assert [a, b, c, d, e] == [a] + [b, c, d, e];
  }

  /** Joining two non-empty sequences puts one separator between their joins. */
  lemma {:induction false} JoinAppend(xs: seq<string>, ys: seq<string>, sep: char)
    requires |xs| >= 1 && |ys| >= 1
    ensures Join(xs + ys, sep) == Join(xs, sep) + [sep] + Join(ys, sep)
    decreases |xs|
  {
    if |xs| == 1 {
      assert xs + ys == [xs[0]] + ys;
      JoinCons(xs[0], ys, sep);
    } else {
      assert (xs + ys)[0] == xs[0];
      assert (xs + ys)[1..] == xs[1..] + ys;
      JoinAppend(xs[1..], ys, sep);
    }
  }

  /** ASCII upper-casing, the part of the invariant culture's case mapping
      the model keeps. */
  function Upper(c: char): char {
    if 'a' <= c <= 'z' then (c as int - 32) as char else c
  }

  /** `s.StartsWith(prefix, StringComparison.OrdinalIgnoreCase)`. */
  predicate StartsWithIgnoreCase(s: string, prefix: string) {
    |prefix| <= |s| && forall i :: 0 <= i < |prefix| ==> Upper(s[i]) == Upper(prefix[i])
  }
}

=== FILE: wrappers.dfy ===
/** Failure-compatible wrappers used in place of the launcher's `null`
    returns and thrown exceptions. */
module Wrappers {

  /** A value that may be absent (the launcher returns `null`). */
  datatype Option<+T> = None | Some(value: T) {

    predicate IsFailure() {
      None?
    }

    function PropagateFailure<U>(): Option<U>
      requires None?
    {
      None
    }

    function Extract(): T
      requires Some?
    {
      value
    }
  }

  /** The result of an operation that either completes or throws. */
  datatype Result<+R, +E> = Success(value: R) | Failure(error: E) {

    predicate IsFailure() {
      Failure?
    }

    function PropagateFailure<U>(): Result<U, E>
      requires Failure?
    {
      Failure(error)
    }

    function Extract(): R
      requires Success?
    {
      value
    }
  }
}
